=== FILE: README.md ===
# KTViz core in Dafny

KTViz plots ship-encounter scenarios. A trajectory file lists vessels. Each
vessel is a route of legs: straight lines or circular arcs, each with a
bearing, a curvature, a length, a duration and a start point. The plotter
(`main.py`) does the following:

- normalises the file into local coordinates;
- stores it in the module-level `data_json` with a trailing origin
  sentinel, which a call with `is_loaded` set reads back instead of the
  file (the application never sets it: every slider move at app.py:106
  reads and assembles the file again);
- records each vessel's position at a fraction of its own total time;
- draws yellow and dark-red proximity lines from the first vessel, the own
  ship, to the others;
- returns the own ship's leg speeds for a step profile.

The scenario editor (`paintall.py`) turns mouse strokes into an own ship
and targets. It exports them as navigation, route and target records.

The model is written in pure functions over immutable datatypes:

- `values.dfy`: JSON values, positions, and the numeric primitives the
  code borrows. `math.cos`/`sin`/`atan2`, the power `** 0.5` the code
  takes of a squared length (the `sqrt` field), and the `konverter`
  functions `positions`, `coords_relative` and `coords_global` are fields
  of an `Env` record of total functions about which nothing is assumed.
- `kinematics.dfy`: reading a leg from an item, and the line and arc
  position formulas of `plot_items` and `plot_position`.
- `assembly.dfy`: `check_type` and the non-loaded branch of
  `prepare_file`. This covers choosing relative or geodetic coordinates,
  normalising items, summing durations, appending the origin sentinel, and
  reading it back on the loaded path.
- `sampler.dfy`: leg start times, the half-open activity window, and the
  positions one vessel records at a query time.
- `proximity.dfy`: the distance bands and the lines from the own ship.
- `plot.dfy`: the vessel loop of `plot_data`, which stops at the sentinel,
  and the frame it produces.
- `prepare.dfy`: `prepare_file` as a whole, including the store
  `data_json` it updates, and the velocity step profile.
- `editor.dfy`: the widget's stroke state machine (press, move, release,
  clear, resize, spin boxes) and its invariant.
- `export.dfy`: `convert_file`'s derivation of target, route and
  navigation records.

Every Python exception that `prepare_file`'s bare `except` swallows is
modelled as `None`:

- a missing key;
- a division by zero;
- an index into an empty list;
- the zero step of `np.arange` for an arc of length zero.

Behaviour as written that a reader might not expect:

- **No clamping of the query time.** From `p_time * time >= time` on, a
  vessel records nothing (`Plot.EndOfTimelineRecordsNothing`); it is not
  held at its final position.
- **Band boundaries.** The caution test is `2r < d < 3r`, strict on both
  sides, and it is tested first. So `d == 2r` draws no line at all
  (`Proximity.TwoRadiiUnflagged`).
- **Empty item containers.** A vessel whose `items` is an empty dictionary
  or an empty string passes the item loop and is stored with no legs and
  time 0 (`Assembly.EmptyItemsVessel`).
- **A clear does not end a drag.** `clear_window` leaves `keepDraw` alone,
  so a release after a clear still records the dragged stroke, as the own
  ship (`Editor.ClearKeepsDrag`).
- **Negative durations.** A negative duration is accepted. Only a zero
  duration fails, by division by zero.
- **Radius zero.** The radius spin box allows zero, and then nothing is
  flagged.
- **Relative mode** needs both `x` and `y` in the first item. The tuple
  lookup raises on either one missing.
- **Velocity series.** It takes the speeds of every vessel equal by value
  to the first one, because `datas.index` compares values. It is the own
  ship's speeds only when no other vessel equals the first
  (`Plot.VelocitySeries`).

## Model

| member | source | states |
|---|---|---|
| Values.Radians | main.py:155-158 | converting degrees to radians keeps zero at zero and keeps the sign |
| Values.Degrees | paintall.py:217-218 | `degrees` is undone by `radians`: radians of the result is the input angle |
| Values.SumPrefixMonotone | main.py:67 | with non-negative durations, the running total over a longer prefix is never smaller |
| Kinematics.ToLeg | main.py:199-230 | an item is plottable exactly when its six numeric keys are numbers, its duration is non-zero and an arc has non-zero length; the leg carries the item's values |
| Kinematics.LinePos | main.py:119-133 | the straight-leg position `(pY + Yt, pX + Xt)` with `(Xt, Yt) = positions(begin_angle, vel * te)`; its meaning is stated by `Kinematics.LineStartsAtItem` and `Kinematics.LineEndsAtSegmentEnd` |
| Kinematics.ArcPos | main.py:153-169 | the arc position with the offsets `dx`, `dy` of main.py:221-223; its meaning is stated by `Kinematics.ArcDispatch`, `Kinematics.ArcStartsAtItem` and `Kinematics.ArcOnCircle` |
| Kinematics.Sample | main.py:119-158 | the position recorded for a leg after `te` seconds, chosen on `curve == 0`; `Kinematics.SampleDependsOn` states which primitives it depends on |
| Kinematics.SampleDependsOn | main.py:119-158 | a line sample depends only on `positions`, never on `cos`/`sin`; an arc sample depends only on `cos`/`sin`, never on `positions`, because the computed centre cancels |
| Kinematics.ArcDispatch | main.py:153-158 | for any `cos`, `sin` and centre, the offsets `dx`, `dy` cancel the computed centre: an arc point is the start point moved by the chord between the initial and the current phase |
| Kinematics.ArcStartsAtItem | main.py:219-223 | an arc is at its item's stored start point at elapsed time 0 (continuity) |
| Kinematics.LineStartsAtItem | main.py:120-133 | a line is at its item's stored start point at elapsed time 0 when a zero distance is a zero displacement |
| Kinematics.LineEndsAtSegmentEnd | main.py:202-208 | a line at `te == duration` is at the far end of the segment drawn for it |
| Kinematics.ArcOnCircle | main.py:153-158 | an arc point stays at distance `abs(1 / curve)` from one fixed centre throughout the leg |
| Assembly.CheckType | main.py:409-422 | a constraints file iff a dictionary typed `FeatureCollection`; a trajectory file iff not a dictionary or untyped; nothing otherwise |
| Assembly.DetectMode | main.py:272-279 | relative iff the first item has `x` and `y`; geodetic iff it lacks one of them but has `lat` and `lon`; the origin is that item's two values |
| Assembly.NormalizeItem | main.py:284-293 | succeeds iff the item has both keys (and converts, in geodetic mode); the result has the same keys less the two plus `X`, `Y`, the other values unchanged, and `X`, `Y` copied or converted |
| Assembly.NormalizeKeepsDuration | main.py:285-287 | normalising an item never touches its `duration` |
| Assembly.Walk | main.py:282-296 | the item loop with its running `time`; its meaning is stated by `Assembly.WalkSucceeds`, `Assembly.WalkItems` and `Assembly.WalkTime` |
| Assembly.WalkStep | main.py:283-295 | one turn of the loop on an acceptable item appends the normalised item and adds that item's duration to the total |
| Assembly.WalkSucceeds | main.py:283-295 | the item loop gets through a vessel iff every item is acceptable |
| Assembly.WalkItems | main.py:283-295 | the loop's output has one normalised item per input item, in input order, after those already produced |
| Assembly.WalkTime | main.py:282-296 | the vessel's `time` is the sum of its stored items' durations |
| Assembly.ItemsOf | main.py:283 | what `for item in data['items']` iterates: a list's elements or a string's characters, and nothing for an empty dictionary; it fails on a number or a missing key, and anything other than a list yields only strings |
| Assembly.EmptyItemsVessel | main.py:281-296 | a vessel whose `items` is an empty dictionary or string is stored with no legs and time 0 |
| Assembly.NormalizeVessel | main.py:280-297 | a vessel normalises iff its `items` can be iterated and every item iterated is acceptable; it keeps item count and order, and its time is its durations' sum |
| Assembly.NormalizeAll | main.py:280-297 | every vessel is normalised in input order, and one failure fails all |
| Assembly.Assemble | main.py:268-300 | the store exists iff the mode is detected and every vessel normalises; it has one entry per vessel in order, then the origin |
| Assembly.AssemblePreservesVessels | main.py:280-297 | every stored vessel keeps its input item count and has a time equal to its durations' sum |
| Assembly.ReloadRecoversOrigin | main.py:300-303 | the loaded path reads back exactly the origin the fresh path chose |
| Assembly.OriginIsLast | main.py:297-300 | the origin sentinel is the one non-vessel entry and comes last |
| Assembly.Reload | main.py:301-303 | the loaded path finds an origin iff the store is non-empty and ends in the origin entry, and then returns that entry's pair |
| Assembly.AssembledIsTrajectory | main.py:265-268 | every file that assembles is dispatched to the trajectory path, never to the constraints path |
| Sampler.Legs | main.py:52-53 | a vessel's legs are read iff every item reads as a leg, one leg per item in order |
| Sampler.StartOf | main.py:50-67 | `start_time` when leg `i` is reached; its meaning is stated by `Sampler.StartOfNext`, `Sampler.StartOfMonotone` and `Sampler.StartOfEnd` |
| Sampler.Active | main.py:120 | the window test; `Sampler.ActiveWindow` states it is the half-open interval between consecutive start times |
| Sampler.Recorded | main.py:52-61 | the positions the leg loop appends for one vessel; its meaning is stated by `Sampler.RecordedCount`, `Sampler.RecordedIsActiveLeg` and `Sampler.VesselRecords` |
| Sampler.StartOfNext | main.py:67 | a leg's start time is the previous start time plus the previous duration |
| Sampler.ActiveWindow | main.py:120 | a leg is active exactly on the half-open interval from its start to the next leg's start |
| Sampler.StartOfMonotone | main.py:67 | with positive durations, start times never decrease |
| Sampler.StartOfEnd | main.py:50-67 | the start time after the last leg is the vessel's total time |
| Sampler.AtMostOneActive | main.py:120 | with positive durations, no two legs are active at the same query time |
| Sampler.SomeActive | main.py:120 | with positive durations, some leg is active at every query time from 0 up to the last start time |
| Sampler.NoneActiveOutside | main.py:50-51 | with positive durations, before 0 or from the total time on no leg is active: the time is not clamped |
| Sampler.RecordedCount | main.py:52-61 | a vessel records exactly one position for a query time inside its route, and none outside it |
| Sampler.RecordedIsActiveLeg | main.py:52-61 | with positive durations, the one recorded position is the active leg's sample at the time spent on that leg |
| Sampler.VesselRecords | main.py:50-67 | inside the route the record is the active leg's sample; outside it, nothing |
| Sampler.TimeIsTotal | main.py:294-296 | the stored vessel time equals the total of its legs' durations |
| Sampler.ScaledInside | main.py:51 | a fraction in [0, 1) of a positive total is a query time inside the route |
| Sampler.ScaledAfter | main.py:51 | a fraction of 1 or more of a positive total is a query time past the route |
| Sampler.SliderAlwaysInside | app.py:47-48 | every slider position 0..99 gives a fraction below one, and a query time inside any route with positive durations |
| Proximity.ClassifyMatchesDistance | main.py:73-79 | banding the squared distance gives the same answer as the source's comparisons on the distance, boundaries included |
| Proximity.TwoRadiiUnflagged | main.py:75-79 | a target at exactly twice the radius draws no line |
| Proximity.BandOfDistance | main.py:73-83 | the source's comparisons on the distance; `Proximity.TwoRadiiUnflagged` states its boundary behaviour |
| Proximity.Classify | main.py:73-83 | the same comparisons on the squared distance; `Proximity.ClassifyMatchesDistance` states that it agrees with `Proximity.BandOfDistance` |
| Proximity.Links | main.py:71-83 | every drawn line goes to a recorded position other than the own ship, with its band, never Clear; every flagged position other than the own ship gets a line |
| Plot.Velocities | main.py:68-69 | one speed per leg, `length / duration`, in leg order |
| Plot.VesselPart | main.py:50-69 | one vessel's recorded positions and speeds; `Plot.OnePositionPerVessel` and `Plot.VelocitiesOfFirstVessel` state what it adds |
| Plot.Scan | main.py:47-69 | the vessel loop up to the first non-vessel entry; `Plot.ScanStopsAtOrigin` and `Plot.OnePositionPerVessel` state its meaning |
| Plot.PlotData | main.py:45-83 | the frame's positions and velocities are those the vessel loop records, and there is no frame exactly when that loop records nothing (`current_coords[0]` raises); a frame always records at least one position; every line goes to a recorded position other than the first, banded by its squared distance to the first and never Clear; every position other than the first whose band is not Clear gets a line |
| Plot.Visited | main.py:47-49 | the vessels visited are the longest prefix of vessels, and whatever stops the loop is an origin entry |
| Plot.ScanStopsAtOrigin | main.py:47-49 | entries after the origin sentinel never affect the plot |
| Plot.OnePositionPerVessel | main.py:47-61 | before the end of the timeline, every visited showable vessel records exactly one position |
| Plot.EndOfTimelineRecordsNothing | main.py:51-61 | at `p_time >= 1` nothing is recorded (no clamp) |
| Plot.ScanPositionAt | main.py:47-61 | before the end of the timeline, the `k`-th recorded position is the one the `k`-th visited vessel records |
| Plot.FramePositions | main.py:45-71 | before the end of the timeline there is a frame with one position per vessel, and position `k` is the sample of a leg of vessel `k` that is active at `p_time` times the vessel's time, taken at the time spent on that leg |
| Plot.EndOfTimelineFails | main.py:51-71 | at `p_time >= 1` a store of showable vessels gives no frame: `current_coords[0]` raises |
| Plot.VelocitiesOfFirstVessel | main.py:68-69 | the series is the first vessel's speeds followed by those of later vessels equal to it |
| Plot.UnexpectedCopies | main.py:68-69 | later vessels add no speeds when none of them equals the first |
| Plot.VelocitySeries | main.py:68-69 | for a store whose first vessel is unique, the series is exactly its leg speeds in order |
| Prepare.PrepareFile | main.py:259-335 | only a constraints file gives the constraints outcome, and it leaves the store alone; the loaded path never changes the store; the fresh path stores the assembled file even when plotting fails; the call fails iff assembly, reload or plotting fails, so every other trajectory call returns the store with its frame |
| Prepare.ReloadReproducesFrame | main.py:299-311 | after a fresh call plots a file, a loaded call with the same time and radius returns the same frame and store |
| Prepare.FileAtEndOfTimelineFails | main.py:299-335 | at `p_time >= 1` a fresh call on a file of showable vessels fails, after replacing the store with the assembled file |
| Prepare.SliderFramePerVessel | app.py:106 | in the application, every slider position plots one position per vessel of a showable file |
| Prepare.VisitedUpToOrigin | main.py:47-49 | the loop visits exactly the entries before the first origin |
| Prepare.StepProfile | main.py:317-325 | two points per speed, `(i, 3600 v_i)` and `(i+1, 3600 v_i)`, with non-decreasing x |
| Editor.Clamp | paintall.py:107-122 | a spin box value lies within its range, and a value already in range is kept |
| Editor.Clear | paintall.py:151-156 | `clear_window`; `Editor.ClearForgetsStrokes` and `Editor.ClearKeepsDrag` state what it forgets and what it keeps |
| Editor.Run | paintall.py:287-319 | the widget after a sequence of events; `Editor.RunPreservesInv` and `Editor.DragsAfterClear` state its meaning |
| Editor.Step | paintall.py:287-319 | only a left release while drawing records a stroke (current mode, press point, last drag point), then switches to targets; a left press restarts both ends; a held drag moves the end to the mouse, and only a press or a held drag moves it; a spin box sets its own value, clamped, and nothing else; mouse events leave the spin boxes alone |
| Editor.InitialInv | paintall.py:65-80 | the constructed widget satisfies the invariant |
| Editor.StepPreservesInv | paintall.py:287-319 | every event keeps own-ship mode iff the list is empty, the own ship first, the rest targets, and the spin boxes in range |
| Editor.RunPreservesInv | paintall.py:287-319 | any event sequence keeps the invariant |
| Editor.ReachableOwnShipFirst | paintall.py:295-311 | in every reachable state a stroke is the own ship iff it is the first |
| Editor.ClearForgetsStrokes | paintall.py:151-156 | after a clear, the widget no longer depends on the strokes recorded before or on the drawing mode: two widgets that differ only in those behave the same under any events |
| Editor.ClearKeepsDrag | paintall.py:151-156 | a clear leaves a drag in progress alive: a release right after it records the dragged stroke as the own ship |
| Editor.DragsAfterClear | paintall.py:287-318 | after a clear, a drag records the own ship from press to last drag point, and the next drag records a target |
| Editor.DoubleReleaseRecordsOnce | paintall.py:292-313 | a second release right after a first one records nothing |
| Export.OwnShips | paintall.py:188 | holds exactly the strokes tagged as own ship |
| Export.Targets | paintall.py:189 | holds exactly the strokes not tagged as own ship |
| Export.FilterMembership | paintall.py:188-189 | the own-ship list holds exactly the strokes tagged `our`, and the target list exactly the others |
| Export.OwnShipsAppend | paintall.py:188 | the own-ship filter distributes over concatenation, so it keeps the strokes' relative order |
| Export.TargetsAppend | paintall.py:189 | the target filter distributes over concatenation, so it keeps the strokes' relative order |
| Export.FiltersPartition | paintall.py:188-189 | the two lists together hold every stroke exactly as often as the input does |
| Export.OwnShipPresent | paintall.py:188-192 | `[...][0]` finds a ship exactly when some stroke is tagged `our`, otherwise the `IndexError` ends the export; the ship found is one of the strokes |
| Export.FirstOwnShip | paintall.py:188 | the exported `ship` is the first stroke tagged `our` |
| Export.TargetOf | paintall.py:194-212 | one target record; `Export.TargetTranslation` states that it depends only on relative positions |
| Export.Convert | paintall.py:187-250 | no own ship iff no stroke is tagged as own ship; zero-horizon failure iff there is one and the horizon is 0; otherwise one target record per target stroke, and route and nav records at the spin box origin, along the ship's course, with speed times horizon equal to the ship's length |
| Export.SplitUnderInv | paintall.py:188-189 | under the editor invariant the own ship is the first stroke and the targets are all the others |
| Export.AllTargets | paintall.py:189 | a list of targets is kept whole by the target filter and contains no own ship |
| Export.ExportFromEditor | paintall.py:188-212 | from any reachable state with a stroke and non-zero horizon: one target record per stroke after the first, in order, each relative to the first |
| Export.NothingAfterClear | paintall.py:187-192 | right after a clear or resize, converting produces nothing |
| Export.RouteAgreesWithNav | paintall.py:217-245 | the exported route leg, read back as a plotter leg, has the navigation record's speed in knots and its course as heading |
| Export.TargetTranslation | paintall.py:194-212 | moving the own ship and a target by the same amount leaves the target record unchanged |
| Export.ShiftKeepsShape | paintall.py:199-208 | moving a stroke keeps its length and its course |
| Export.ConvertTranslation | paintall.py:187-250 | export does not depend on where on the canvas the scenario is drawn: moving every stroke by the same amount gives the same records |

## Left out

- Drawing: all matplotlib calls and text; markers, circles, labels and
  axes; the half-hour tick markers, which are drawn but never recorded;
  `plot_limits` and the polygon drawing of constraints files. They produce
  pixels, not data.
- The Qt shell of `app.py` and the widget's painting and grid code. They
  are user interface. `app.py` only fixes the slider and spin box ranges
  and the call `prepare_file(file, True, ax, rel, tper/100, radius)`.
  That call passes no figure and never sets `is_loaded`.
- File and JSON I/O, `argparse` and `make_all`. Reading and parsing a file
  is outside the model: `doc` is the parsed value. `make_all` calls
  `check_type` with two arguments and cannot run.
- The `konverter` module and `math`. These are uninterpreted `Env`
  functions: their code is not part of this model.
- Floating point. Reals are exact. Rounding in `** 0.5`, in `1 / curve`
  and in the spin box's two decimals is not modelled.
- The `np.arange` arc preview. Only its failure on a zero step is kept,
  because the preview only draws.
- The `USE_CURVING` branches. The flag is `False`, so items' own `X`/`Y`
  are used and the `start_coords` and `rel` arguments have no effect.
- JSON booleans and `null`. They are not part of the value type.
- The module globals `s_lat`, `s_lon`. They are set from the first item
  at main.py:275/279, before any vessel is normalised, so a later failure
  still leaves them changed. Besides coordinate labels they anchor the
  constraint drawing at main.py:365-400. The model keeps the origin only
  in the store, since constraint drawing is left out.
- Export file writes. A failure part-way leaves earlier files written.
  `constraints.json`, `hmi_data.json` and `settings.json` are constant
  dumps.
- Export timestamps. The several `time.time()` readings are one parameter
  `now`.
- Kinematics.ToLeg: a field that is a number in another JSON form (a
  boolean) counts as a failure, though Python would compute with it.
- Assembly.NormalizeItem: geodetic conversion requires the origin and the
  item's `lat`/`lon` to be numbers. What `coords_relative` does with other
  values is not known.
- Assembly.ItemsOf: a non-empty dictionary of items fails at once instead
  of yielding its keys. Its first key, a string, already fails the loop at
  `item.keys()`, so the vessel fails either way; key order is not modelled.
- Kinematics.ArcOnCircle: takes `cos^2 + sin^2 = 1` at the current phase
  as a hypothesis, since `cos` and `sin` are uninterpreted.
- Kinematics.LineStartsAtItem: takes `positions(b, 0) == (0, 0)` as a
  hypothesis, for the same reason.
- An arc returning to its start after a full turn is not stated. It needs
  the periodicity of `cos` and `sin`.
- Sampler.AtMostOneActive: assumes positive durations. With negative ones,
  windows overlap and the code records several positions.
- Sampler.SomeActive: assumes positive durations, like the window lemmas.
- Sampler.NoneActiveOutside: assumes positive durations. With a zero or
  negative duration a leg's window can reach past the total time.
- Sampler.RecordedIsActiveLeg: assumes positive durations, so that no
  other leg's window also holds the query time.
- Sampler.RecordedCount: assumes positive durations.
- Sampler.VesselRecords: assumes positive durations.
- Plot.OnePositionPerVessel: stated for showable vessels only (at least one
  leg, positive durations, time consistent with them).
- Plot.EndOfTimelineRecordsNothing: stated for showable vessels only.
- Plot.FramePositions: stated for showable vessels only, like
  `Plot.OnePositionPerVessel`.
- Plot.EndOfTimelineFails: stated for showable vessels only.
- Plot.VelocitySeries: requires that no later visited vessel equals the
  first. `Plot.VelocitiesOfFirstVessel` covers the general case.
- Proximity.Links: compares squared distances exactly, not the
  floating-point `** 0.5`.

=== FILE: assembly.dfy ===
/**
 Route preparation (main.py, `prepare_file` and `check_type`): deciding what
 kind of file was opened, choosing between relative and geodetic
 coordinates, normalising every item to local `X`/`Y`, summing each
 vessel's leg durations, and storing the origin as a trailing sentinel that
 the reload path reads back.
 */
module Assembly {
  import opened Values

  /** The answer of `check_type`: a constraints (polygon) file or a
      trajectory file. */
  datatype FileKind = Poly | Traj

  /** `check_type` on a parsed file.  A dictionary whose `"type"` is
      `"FeatureCollection"` is a constraints file; anything that makes the
      lookup raise (not a dictionary, or no `"type"` key) is a trajectory
      file; a dictionary with any other `"type"` falls off the end of the
      function, which is `None` in Python. */
  function CheckType(doc: Json): (r: Option<FileKind>)
    ensures r == Some(Poly) <==> doc.Obj? && "type" in doc.fields && doc.fields["type"] == Str("FeatureCollection")
    ensures r == Some(Traj) <==> !doc.Obj? || "type" !in doc.fields
    ensures r != Some(Poly) && r != Some(Traj) <==> r.None?
  {
    match doc
    case Obj(f) =>
      if "type" !in f then Some(Traj)
      else if f["type"] == Str("FeatureCollection") then Some(Poly)
      else None
    case _ => Some(Traj)
  }

  /** Where the item coordinates come from: `x`/`y` already in the local
      frame, or `lat`/`lon` to be converted. */
  datatype CoordMode = Relative | Geodetic

  /** The two item keys a mode reads, `key1` and `key2` in the source. */
  function Keys(mode: CoordMode): (string, string) {
    match mode
    case Relative => ("x", "y")
    case Geodetic => ("lat", "lon")
  }

  /** The origin `[s_lat, s_lon]`: the first vessel's first item's two
      coordinates, whatever JSON values they are. */
  datatype Anchor = Anchor(a: Json, b: Json)

  /** One element of the prepared store: a vessel with its normalised items
      and total `time`, or the trailing origin pair. */
  datatype Entry =
    | Vessel(items: seq<map<string, Json>>, time: real)
    | Origin(anchor: Anchor)

  /** `datas[0]['items'][0]`, when every subscript succeeds. */
  function FirstItem(doc: Json): Option<map<string, Json>> {
    if doc.Arr? && |doc.elems| > 0 && doc.elems[0].Obj? && "items" in doc.elems[0].fields then
      var its := doc.elems[0].fields["items"];
      if its.Arr? && |its.elems| > 0 && its.elems[0].Obj? then Some(its.elems[0].fields) else None
    else None
  }

  /** The mode and origin chosen from the first item: relative when the
      `x`, `y` lookup succeeds, otherwise geodetic when the `lat`, `lon`
      lookup does; any other failure aborts the preparation. */
  function DetectMode(doc: Json): (r: Option<(CoordMode, Anchor)>)
    ensures r.Some? ==> FirstItem(doc).Some?
    ensures r.Some? && r.value.0 == Relative <==>
      FirstItem(doc).Some? && "x" in FirstItem(doc).value && "y" in FirstItem(doc).value
    ensures r.Some? && r.value.0 == Geodetic <==>
      && FirstItem(doc).Some?
      && !("x" in FirstItem(doc).value && "y" in FirstItem(doc).value)
      && "lat" in FirstItem(doc).value && "lon" in FirstItem(doc).value
    ensures r.Some? ==>
      var it := FirstItem(doc).value;
      var (k1, k2) := Keys(r.value.0);
      k1 in it && k2 in it && r.value.1 == Anchor(it[k1], it[k2])
  {
    match FirstItem(doc)
    case None => None
    case Some(it) =>
      if "x" in it && "y" in it then Some((Relative, Anchor(it["x"], it["y"])))
      else if "lat" in it && "lon" in it then Some((Geodetic, Anchor(it["lat"], it["lon"])))
      else None
  }

  /** The item with its two coordinate keys dropped. */
  function Strip(f: map<string, Json>, k1: string, k2: string): map<string, Json> {
    map k | k in f && k != k1 && k != k2 :: f[k]
  }

  /** Whether the geodetic conversion can run: the origin and the item's
      `lat`, `lon` are numbers. */
  predicate Convertible(o: Anchor, f: map<string, Json>) {
    o.a.Num? && o.b.Num? && "lat" in f && "lon" in f && f["lat"].Num? && f["lon"].Num?
  }

  /** `coords_relative(s_lat, s_lon, item[key1], item[key2])`. */
  function Localise(env: Env, o: Anchor, f: map<string, Json>): (real, real)
    requires Convertible(o, f)
  {
    env.coordsRelative(o.a.n, o.b.n, f["lat"].n, f["lon"].n)
  }

  /** One normalised item: a copy without `key1` and `key2`, plus `X` and
      `Y`, copied in relative mode and converted in geodetic mode. */
  function NormalizeItem(env: Env, mode: CoordMode, o: Anchor, item: Json): (r: Option<map<string, Json>>)
    ensures r.Some? <==>
      && item.Obj?
      && Keys(mode).0 in item.fields && Keys(mode).1 in item.fields
      && (mode == Geodetic ==> Convertible(o, item.fields))
    ensures r.Some? ==> r.value.Keys == item.fields.Keys - {Keys(mode).0, Keys(mode).1} + {"X", "Y"}
    ensures r.Some? ==> forall k :: k in item.fields && k !in {Keys(mode).0, Keys(mode).1, "X", "Y"} ==>
      r.value[k] == item.fields[k]
    ensures r.Some? && mode == Relative ==> r.value["X"] == item.fields["x"] && r.value["Y"] == item.fields["y"]
    ensures r.Some? && mode == Geodetic ==>
      r.value["X"] == Num(Localise(env, o, item.fields).0) && r.value["Y"] == Num(Localise(env, o, item.fields).1)
  {
    if !item.Obj? then None
    else
      var f := item.fields;
      var (k1, k2) := Keys(mode);
      if k1 !in f || k2 !in f then None
      else match mode
        case Relative => Some(Strip(f, k1, k2)["X" := f[k1]]["Y" := f[k2]])
        case Geodetic =>
          if !Convertible(o, f) then None
          else
            var c := Localise(env, o, f);
            Some(Strip(f, k1, k2)["X" := Num(c.0)]["Y" := Num(c.1)])
  }

  /** A leg's `duration`, where it is a number. */
  function Duration(item: map<string, Json>): real {
    if "duration" in item && item["duration"].Num? then item["duration"].n else 0.0
  }

  /** The durations of a vessel's items, in leg order. */
  function Durations(items: seq<map<string, Json>>): (ds: seq<real>)
    ensures |ds| == |items|
    ensures forall i :: 0 <= i < |items| ==> ds[i] == Duration(items[i])
  {
    seq(|items|, i requires 0 <= i < |items| => Duration(items[i]))
  }

  /** An input item the vessel loop gets through: it normalises, and
      `time += item['duration']` adds a number. */
  predicate ItemOk(env: Env, mode: CoordMode, o: Anchor, item: Json) {
    && NormalizeItem(env, mode, o, item).Some?
    && "duration" in item.fields && item.fields["duration"].Num?
  }

  /** The vessel loop from the item at hand on: `done` holds the items
      already normalised and `time` the running total. */
  function Walk(env: Env, mode: CoordMode, o: Anchor, rest: seq<Json>, done: seq<map<string, Json>>, time: real)
    : Option<Entry>
    decreases |rest|
  {
    if |rest| == 0 then Some(Vessel(done, time))
    else if !ItemOk(env, mode, o, rest[0]) then None
    else
      var obj := NormalizeItem(env, mode, o, rest[0]).value;
      Walk(env, mode, o, rest[1..], done + [obj], time + rest[0].fields["duration"].n)
  }

  /** Normalising an item leaves its `duration` alone. */
  lemma NormalizeKeepsDuration(env: Env, mode: CoordMode, o: Anchor, item: Json)
    requires ItemOk(env, mode, o, item)
    ensures Duration(NormalizeItem(env, mode, o, item).value) == item.fields["duration"].n
  {
    var (k1, k2) := Keys(mode);
    assert "duration" !in {k1, k2, "X", "Y"};
  }

  /** The loop gets through `rest` exactly when every item of it is
      acceptable. */
  lemma {:induction false} WalkSucceeds(env: Env, mode: CoordMode, o: Anchor, rest: seq<Json>,
                                        done: seq<map<string, Json>>, time: real)
    ensures Walk(env, mode, o, rest, done, time).Some? <==>
      forall i :: 0 <= i < |rest| ==> ItemOk(env, mode, o, rest[i])
    decreases |rest|
  {
    if |rest| > 0 && ItemOk(env, mode, o, rest[0]) {
      var obj := NormalizeItem(env, mode, o, rest[0]).value;
      WalkSucceeds(env, mode, o, rest[1..], done + [obj], time + rest[0].fields["duration"].n);
      assert forall i :: 1 <= i < |rest| ==> rest[i] == rest[1..][i - 1];
    }
  }

  /** The items the loop has produced once it has gone through `rest`:
      the earlier items followed by the normalised `rest`. */
  lemma {:induction false} WalkItems(env: Env, mode: CoordMode, o: Anchor, rest: seq<Json>,
                                     done: seq<map<string, Json>>, time: real)
    requires Walk(env, mode, o, rest, done, time).Some?
    ensures var v := Walk(env, mode, o, rest, done, time).value;
      && v.Vessel?
      && |v.items| == |done| + |rest|
      && v.items[..|done|] == done
      && (forall i :: 0 <= i < |rest| ==> NormalizeItem(env, mode, o, rest[i]) == Some(v.items[|done| + i]))
    decreases |rest|
  {
    if |rest| > 0 {
      assert ItemOk(env, mode, o, rest[0]);
      var obj := NormalizeItem(env, mode, o, rest[0]).value;
      var time' := time + rest[0].fields["duration"].n;
      assert Walk(env, mode, o, rest, done, time) == Walk(env, mode, o, rest[1..], done + [obj], time');
      WalkItems(env, mode, o, rest[1..], done + [obj], time');
      var v := Walk(env, mode, o, rest[1..], done + [obj], time').value;
      assert v.items[..|done| + 1] == done + [obj];
      assert v.items[..|done|] == v.items[..|done| + 1][..|done|];
      forall i | 0 <= i < |rest|
        ensures NormalizeItem(env, mode, o, rest[i]) == Some(v.items[|done| + i])
      {
        if i > 0 {
          assert rest[i] == rest[1..][i - 1];
        } else {
          assert v.items[..|done| + 1][|done|] == obj;
        }
      }
    }
  }

  /** One turn of the loop on an acceptable item: the item is normalised
      and appended, and its duration added to the running total. */
  lemma WalkStep(env: Env, mode: CoordMode, o: Anchor, rest: seq<Json>, done: seq<map<string, Json>>, time: real)
    requires |rest| > 0 && ItemOk(env, mode, o, rest[0])
    ensures var obj := NormalizeItem(env, mode, o, rest[0]).value;
      Walk(env, mode, o, rest, done, time) == Walk(env, mode, o, rest[1..], done + [obj], time + Duration(obj))
  {
    NormalizeKeepsDuration(env, mode, o, rest[0]);
  }

  /** Appending an item appends its duration. */
  lemma DurationsSnoc(items: seq<map<string, Json>>, obj: map<string, Json>)
    ensures Sum(Durations(items + [obj])) == Sum(Durations(items)) + Duration(obj)
  {
    assert Durations(items + [obj]) == Durations(items) + [Duration(obj)];
    SumSnoc(Durations(items), Duration(obj));
  }

  /** The running total the loop ends with is the left-to-right sum of
      every duration it has seen. */
  lemma {:induction false} WalkTime(env: Env, mode: CoordMode, o: Anchor, rest: seq<Json>,
                                    done: seq<map<string, Json>>, time: real)
    requires time == Sum(Durations(done))
    requires Walk(env, mode, o, rest, done, time).Some?
    ensures Walk(env, mode, o, rest, done, time).value.Vessel?
    ensures var v := Walk(env, mode, o, rest, done, time).value;
      v.time == Sum(Durations(v.items))
    decreases |rest|
  {
    if |rest| > 0 {
      var obj := NormalizeItem(env, mode, o, rest[0]).value;
      WalkStep(env, mode, o, rest, done, time);
      DurationsSnoc(done, obj);
      WalkTime(env, mode, o, rest[1..], done + [obj], time + Duration(obj));
    }
  }

  /** What `for item in data['items']` iterates over: the elements of a
      list, the one-character strings of a string, nothing for an empty
      dictionary.  A number is not iterable; a non-empty dictionary yields
      its keys, strings, the first of which already fails at
      `item.keys()`, so it fails as a whole. */
  function ItemsOf(v: Json): (r: Option<seq<Json>>)
    ensures r.Some? ==> v.Obj? && "items" in v.fields
    ensures r.Some? && !v.fields["items"].Arr? ==> forall i :: 0 <= i < |r.value| ==> r.value[i].Str?
    ensures v.Obj? && "items" in v.fields && v.fields["items"].Arr? ==> r == Some(v.fields["items"].elems)
    ensures v.Obj? && "items" in v.fields && v.fields["items"].Str? ==>
      r.Some? && |r.value| == |v.fields["items"].s|
    ensures v.Obj? && "items" in v.fields && v.fields["items"].Obj? ==>
      (r.Some? <==> |v.fields["items"].fields| == 0)
    ensures v.Obj? && "items" in v.fields && v.fields["items"].Num? ==> r.None?
  {
    if v.Obj? && "items" in v.fields then
      match v.fields["items"]
      case Arr(es) => Some(es)
      case Str(s) => Some(seq(|s|, i requires 0 <= i < |s| => Str([s[i]])))
      case Obj(m) => if |m| == 0 then Some([]) else None
      case Num(_) => None
    else None
  }

  /** One vessel of the prepared store: its items normalised in order and
      its `time` the sum of their durations. */
  function NormalizeVessel(env: Env, mode: CoordMode, o: Anchor, v: Json): (r: Option<Entry>)
    ensures r.Some? <==>
      ItemsOf(v).Some? && forall i :: 0 <= i < |ItemsOf(v).value| ==> ItemOk(env, mode, o, ItemsOf(v).value[i])
    ensures r.Some? ==>
      var its := ItemsOf(v).value;
      && r.value.Vessel?
      && |r.value.items| == |its|
      && (forall i :: 0 <= i < |its| ==> NormalizeItem(env, mode, o, its[i]) == Some(r.value.items[i]))
      && r.value.time == Sum(Durations(r.value.items))
  {
    match ItemsOf(v)
    case None => None
    case Some(its) =>
      WalkSucceeds(env, mode, o, its, [], 0.0);
      if Walk(env, mode, o, its, [], 0.0).Some? then
        WalkItems(env, mode, o, its, [], 0.0);
        WalkTime(env, mode, o, its, [], 0.0);
        Walk(env, mode, o, its, [], 0.0)
      else None
  }

  /** Every input vessel normalised, in order. */
  function NormalizeAll(env: Env, mode: CoordMode, o: Anchor, vs: seq<Json>): (r: Option<seq<Entry>>)
    ensures r.Some? <==> forall i :: 0 <= i < |vs| ==> NormalizeVessel(env, mode, o, vs[i]).Some?
    ensures r.Some? ==>
      && |r.value| == |vs|
      && forall i :: 0 <= i < |vs| ==> r.value[i] == NormalizeVessel(env, mode, o, vs[i]).value
  {
    if |vs| == 0 then Some([])
    else match NormalizeVessel(env, mode, o, vs[0])
      case None => None
      case Some(e) =>
        match NormalizeAll(env, mode, o, vs[1..])
        case None =>
          assert forall i :: 0 <= i < |vs| - 1 ==> vs[1..][i] == vs[i + 1];
          None
        case Some(es) =>
          assert forall i :: 0 <= i < |vs| - 1 ==> vs[1..][i] == vs[i + 1];
          Some([e] + es)
  }

  /** The non-loaded branch of `prepare_file` up to `data_json.append`:
      every vessel normalised in order, followed by the origin. */
  function Assemble(env: Env, doc: Json): (r: Option<seq<Entry>>)
    ensures r.Some? <==>
      && DetectMode(doc).Some?
      && forall i :: 0 <= i < |doc.elems| ==>
           NormalizeVessel(env, DetectMode(doc).value.0, DetectMode(doc).value.1, doc.elems[i]).Some?
    ensures r.Some? ==>
      var (mode, o) := DetectMode(doc).value;
      && |r.value| == |doc.elems| + 1
      && r.value[|doc.elems|] == Origin(o)
      && forall i :: 0 <= i < |doc.elems| ==> r.value[i] == NormalizeVessel(env, mode, o, doc.elems[i]).value
  {
    match DetectMode(doc)
    case None => None
    case Some((mode, o)) =>
      match NormalizeAll(env, mode, o, doc.elems)
      case None => None
      case Some(vs) => Some(vs + [Origin(o)])
  }

  /** The loaded branch: `s_lat, s_lon` read back from the last entry of
      the store.  An empty store raises `IndexError`; a vessel dictionary
      in last place raises `KeyError`. */
  function Reload(store: seq<Entry>): (r: Option<Anchor>)
    ensures r.Some? <==> |store| > 0 && store[|store| - 1].Origin?
    ensures r.Some? ==> store[|store| - 1] == Origin(r.value)
  {
    if |store| == 0 then None
    else match store[|store| - 1]
      case Origin(o) => Some(o)
      case Vessel(_, _) => None
  }

  /** The prepared store keeps the vessels in input order, one entry per
      input vessel, each with the input's item count and a `time` equal
      to the sum of its durations. */
  lemma AssemblePreservesVessels(env: Env, doc: Json, store: seq<Entry>, i: nat)
    requires Assemble(env, doc) == Some(store)
    requires i < |doc.elems|
    ensures store[i].Vessel?
    ensures |store[i].items| == |ItemsOf(doc.elems[i]).value|
    ensures store[i].time == Sum(Durations(store[i].items))
  {
  }

  /** The origin round trip: the reload path reads back exactly the origin
      the fresh path chose. */
  lemma ReloadRecoversOrigin(env: Env, doc: Json, store: seq<Entry>)
    requires Assemble(env, doc) == Some(store)
    ensures Reload(store) == Some(DetectMode(doc).value.1)
  {
  }

  /** The origin sentinel is the only non-vessel entry of a prepared
      store, and it comes last. */
  lemma OriginIsLast(env: Env, doc: Json, store: seq<Entry>)
    requires Assemble(env, doc) == Some(store)
    ensures forall i :: 0 <= i < |store| ==> (store[i].Origin? <==> i == |store| - 1)
  {
    forall i | 0 <= i < |store| - 1 ensures store[i].Vessel? {
      AssemblePreservesVessels(env, doc, store, i);
    }
  }

  /** A vessel whose `items` is an empty dictionary or an empty string is
      stored as a vessel with no legs and time 0: the loop body never
      runs. */
  lemma EmptyItemsVessel(env: Env, mode: CoordMode, o: Anchor, v: Json)
    requires v.Obj? && "items" in v.fields
    requires v.fields["items"] == Obj(map[]) || v.fields["items"] == Str([])
    ensures NormalizeVessel(env, mode, o, v) == Some(Vessel([], 0.0))
  {
    match v.fields["items"]
    case Str(s) =>
      assert |s| == 0;
      assert Durations([]) == [];
    case Obj(m) =>
      assert |m| == 0;
      assert Durations([]) == [];
    case _ =>
      assert false;
  }

  /** Every file that assembles is dispatched as a trajectory file: its
      top level is a list, which `check_type` cannot subscript with
      `'type'`. */
  lemma AssembledIsTrajectory(env: Env, doc: Json)
    requires Assemble(env, doc).Some?
    ensures CheckType(doc) == Some(Traj)
  {
    assert FirstItem(doc).Some?;
  }
}

=== FILE: editor.dfy ===
/**
 The scenario editor's stroke bookkeeping (paintall.py, `Widget`): a left
 press starts a stroke, moves with the left button held drag its end, and
 a left release records it, the first one after construction or a clear
 as the own ship and every later one as a target.
 */
module Editor {

  /** A widget position in pixels (`QPoint`). */
  datatype Point = Point(x: int, y: int)

  /** The `type` of a stroke: the own ship (`'our'`) or a target
      (`'foreign'`). */
  datatype Tag = Our | Foreign

  /** One entry of `self.index`. */
  datatype Stroke = Stroke(tag: Tag, start: Point, end: Point)

  /** The mouse button of a press or release event. */
  datatype Button = Left | Right | Middle

  /** The inputs the widget reacts to: mouse events, the Clear button, a
      resize (which clears as well), and the three spin boxes. */
  datatype Event =
    | Press(button: Button, pos: Point)
    | Release(button: Button, pos: Point)
    | Move(leftHeld: bool, pos: Point)
    | ClearField
    | Resize
    | SetLat(lat: real)
    | SetLon(lon: real)
    | SetHorizon(hours: real)

  /** The widget's stroke state together with the spin box values export
      reads. */
  datatype Editor = Editor(
    keepDraw: bool,
    start: Point,
    end: Point,
    mode: Tag,
    strokes: seq<Stroke>,
    lat: real,
    lon: real,
    horizon: real)

  /** Pixels per nautical mile. */
  const Scale: real := 10.0

  /** The widget right after construction: no stroke, `QPoint()` for both
      ends, own-ship mode, latitude 60, longitude 30, a two-hour horizon. */
  const Initial: Editor := Editor(false, Point(0, 0), Point(0, 0), Our, [], 60.0, 30.0, 2.0)

  /** A spin box's value after `setValue(v)`: forced into its range. */
  function Clamp(v: real, lo: real, hi: real): (r: real)
    requires lo <= hi
    ensures lo <= r <= hi
    ensures lo <= v <= hi ==> r == v
  {
    if v < lo then lo else if v > hi then hi else v
  }

  /** `clear_window`: the stroke list emptied and own-ship mode restored. */
  function Clear(e: Editor): Editor {
    e.(mode := Our, strokes := [])
  }

  /** The widget's reaction to one event. */
  function Step(e: Editor, ev: Event): (r: Editor)
    ensures ev.Release? && ev.button == Left && e.keepDraw ==>
      r.strokes == e.strokes + [Stroke(e.mode, e.start, e.end)] && r.mode == Foreign && !r.keepDraw
    ensures !(ev.Release? && ev.button == Left && e.keepDraw) && !ev.ClearField? && !ev.Resize? ==>
      r.strokes == e.strokes && r.mode == e.mode
    ensures ev.Press? && ev.button == Left ==> r.keepDraw && r.start == ev.pos && r.end == ev.pos
    ensures r.end != e.end ==> (ev.Press? && ev.button == Left) || (ev.Move? && ev.leftHeld && e.keepDraw)
    ensures r.start != e.start ==> ev.Press? && ev.button == Left
    ensures ev.Move? && ev.leftHeld && e.keepDraw ==> r.end == ev.pos
    ensures r.keepDraw != e.keepDraw ==>
      (ev.Press? && ev.button == Left) || (ev.Release? && ev.button == Left)
    ensures ev.SetLat? ==> r.lat == Clamp(ev.lat, 0.0, 360.0)
    ensures ev.SetLon? ==> r.lon == Clamp(ev.lon, 0.0, 360.0)
    ensures ev.SetHorizon? ==> r.horizon == Clamp(ev.hours, 0.0, 10.0)
    ensures !ev.SetLat? ==> r.lat == e.lat
    ensures !ev.SetLon? ==> r.lon == e.lon
    ensures !ev.SetHorizon? ==> r.horizon == e.horizon
    ensures ev.SetLat? || ev.SetLon? || ev.SetHorizon? ==>
      r.(lat := e.lat, lon := e.lon, horizon := e.horizon) == e
  {
    match ev
    case Press(b, pos) =>
      if b == Left then e.(keepDraw := true, start := pos, end := pos) else e
    case Release(b, _) =>
      if b == Left && e.keepDraw then
        e.(strokes := e.strokes + [Stroke(e.mode, e.start, e.end)], mode := Foreign, keepDraw := false)
      else e
    case Move(leftHeld, pos) =>
      if leftHeld && e.keepDraw then e.(end := pos) else e
    case ClearField => Clear(e)
    case Resize => Clear(e)
    case SetLat(v) => e.(lat := Clamp(v, 0.0, 360.0))
    case SetLon(v) => e.(lon := Clamp(v, 0.0, 360.0))
    case SetHorizon(v) => e.(horizon := Clamp(v, 0.0, 10.0))
  }

  /** The widget after a sequence of events, in order. */
  function Run(e: Editor, evs: seq<Event>): Editor
    decreases |evs|
  {
    if |evs| == 0 then e else Run(Step(e, evs[0]), evs[1..])
  }

  /** What every reachable widget state satisfies: own-ship mode exactly
      while no stroke is recorded, the first stroke is the own ship, every
      later stroke a target, and the spin boxes within their ranges. */
  predicate Inv(e: Editor) {
    && (e.mode == Our <==> |e.strokes| == 0)
    && (|e.strokes| > 0 ==> e.strokes[0].tag == Our)
    && (forall i :: 1 <= i < |e.strokes| ==> e.strokes[i].tag == Foreign)
    && 0.0 <= e.lat <= 360.0
    && 0.0 <= e.lon <= 360.0
    && 0.0 <= e.horizon <= 10.0
  }

  /** The freshly constructed widget satisfies the invariant. */
  lemma InitialInv()
    ensures Inv(Initial)
  {
  }

  /** Every event preserves the invariant. */
  lemma StepPreservesInv(e: Editor, ev: Event)
    requires Inv(e)
    ensures Inv(Step(e, ev))
  {
  }

  /** Any sequence of events preserves the invariant. */
  lemma {:induction false} RunPreservesInv(e: Editor, evs: seq<Event>)
    requires Inv(e)
    ensures Inv(Run(e, evs))
    decreases |evs|
  {
    if |evs| > 0 {
      StepPreservesInv(e, evs[0]);
      RunPreservesInv(Step(e, evs[0]), evs[1..]);
    }
  }

  /** Every state the widget can reach from construction holds at most one
      own-ship stroke, and only in first place. */
  lemma ReachableOwnShipFirst(evs: seq<Event>, i: nat)
    requires i < |Run(Initial, evs).strokes|
    ensures Run(Initial, evs).strokes[i].tag == Our <==> i == 0
  {
    InitialInv();
    RunPreservesInv(Initial, evs);
  }

  /** Clearing forgets the recorded strokes and the drawing mode: from
      two widgets that differ only in those, a clear followed by the same
      events leads to the same widget. */
  lemma ClearForgetsStrokes(e: Editor, e': Editor, evs: seq<Event>)
    requires e.keepDraw == e'.keepDraw && e.start == e'.start && e.end == e'.end
    requires e.lat == e'.lat && e.lon == e'.lon && e.horizon == e'.horizon
    ensures Run(e, [ClearField] + evs) == Run(e', [ClearField] + evs)
  {
    RunCons(e, ClearField, evs);
    RunCons(e', ClearField, evs);
    assert Step(e, ClearField) == Step(e', ClearField);
  }

  /** Running a sequence that starts with `ev` is running the rest after
      one step. */
  lemma RunCons(e: Editor, ev: Event, evs: seq<Event>)
    ensures Run(e, [ev] + evs) == Run(Step(e, ev), evs)
  {
    assert ([ev] + evs)[0] == ev && ([ev] + evs)[1..] == evs;
  }

  /** A clear does not end a drag in progress: a left release right after
      it records the dragged stroke, as the own ship. */
  lemma ClearKeepsDrag(e: Editor, pos: Point)
    requires e.keepDraw
    ensures Run(e, [ClearField, Release(Left, pos)]).strokes == [Stroke(Our, e.start, e.end)]
  {
    var c := Clear(e);
    var d := c.(strokes := [Stroke(Our, e.start, e.end)], mode := Foreign, keepDraw := false);
    var x := [ClearField, Release(Left, pos)];
    assert x[0] == ClearField && x[1..] == [Release(Left, pos)];
    assert Run(e, x) == Run(c, [Release(Left, pos)]);
    assert Step(c, Release(Left, pos)) == d;
    assert [Release(Left, pos)][1..] == [];
    assert Run(c, [Release(Left, pos)]) == Run(d, []);
  }

  /** Running one more event is one more step after the run. */
  lemma {:induction false} RunSnoc(e: Editor, evs: seq<Event>, ev: Event)
    ensures Run(e, evs + [ev]) == Step(Run(e, evs), ev)
    decreases |evs|
  {
    if |evs| == 0 {
      assert Run(Step(e, ev), []) == Step(e, ev);
      assert ([] + [ev])[1..] == [];
    } else {
      assert (evs + [ev])[1..] == evs[1..] + [ev];
      RunSnoc(Step(e, evs[0]), evs[1..], ev);
    }
  }

  /** After a clear, a complete left-button drag records one own-ship
      stroke from the press position to the last dragged position, and
      the next drag records a target. */
  lemma DragsAfterClear(e: Editor, p0: Point, p1: Point, q0: Point, q1: Point)
    ensures var evs := [ClearField, Press(Left, p0), Move(true, p1), Release(Left, q1)];
      Run(e, evs).strokes == [Stroke(Our, p0, p1)] && Run(e, evs).mode == Foreign
    ensures var evs := [ClearField, Press(Left, p0), Move(true, p1), Release(Left, q1),
                        Press(Left, q0), Release(Left, q1)];
      Run(e, evs).strokes == [Stroke(Our, p0, p1), Stroke(Foreign, q0, q0)]
  {
    var e1 := Clear(e);
    var e2 := e1.(keepDraw := true, start := p0, end := p0);
    var e3 := e2.(end := p1);
    var e4 := e3.(strokes := [Stroke(Our, p0, p1)], mode := Foreign, keepDraw := false);
    var e5 := e4.(keepDraw := true, start := q0, end := q0);
    var e6 := e5.(strokes := [Stroke(Our, p0, p1), Stroke(Foreign, q0, q0)], mode := Foreign, keepDraw := false);
    var evs1 := [ClearField];
    var evs2 := evs1 + [Press(Left, p0)];
    var evs3 := evs2 + [Move(true, p1)];
    var evs4 := evs3 + [Release(Left, q1)];
    var evs5 := evs4 + [Press(Left, q0)];
    var evs6 := evs5 + [Release(Left, q1)];
    assert Run(e, []) == e;
    RunSnoc(e, [], ClearField);
    assert [] + [ClearField] == evs1;
    assert Run(e, evs1) == e1;
    RunSnoc(e, evs1, Press(Left, p0));
    assert Run(e, evs2) == e2;
    RunSnoc(e, evs2, Move(true, p1));
    assert Run(e, evs3) == e3;
    RunSnoc(e, evs3, Release(Left, q1));
    assert Run(e, evs4) == e4;
    RunSnoc(e, evs4, Press(Left, q0));
    assert Run(e, evs5) == e5;
    RunSnoc(e, evs5, Release(Left, q1));
    assert Run(e, evs6) == e6;
    assert evs4 == [ClearField, Press(Left, p0), Move(true, p1), Release(Left, q1)];
    assert evs6 == [ClearField, Press(Left, p0), Move(true, p1), Release(Left, q1), Press(Left, q0), Release(Left, q1)];
  }

  /** A release without a preceding left press in the same drag records
      nothing: a second release right after a recorded one is ignored. */
  lemma DoubleReleaseRecordsOnce(e: Editor, b: Button, pos: Point)
    ensures var e1 := Step(e, Release(Left, pos));
      Step(e1, Release(b, pos)).strokes == e1.strokes
  {
  }
}

=== FILE: export.dfy ===
/**
 The editor's export (paintall.py, `convert_file`): the own-ship stroke
 becomes a one-leg route and a navigation record, every target stroke a
 target record positioned relative to the own ship, all with speeds taken
 from stroke lengths over the time horizon.
 */
module Export {
  import opened Values
  import opened Editor
  import Kinematics

  /** One element of `target_data.json`. */
  datatype TargetRecord = TargetRecord(
    id: string, cat: int, lat: real, lon: real, sog: real, cog: real,
    firstDetectDist: real, crossDist: int, timestamp: real)

  /** The single item of `route_data.json`. */
  datatype RouteItem = RouteItem(
    beginAngle: real, curve: int, duration: real, lat: real, lon: real, length: real,
    portDev: int, starboardDev: int)

  /** The content of `nav_data.json`. */
  datatype NavRecord = NavRecord(
    cat: int, lat: real, lon: real, sog: real, stw: real, cog: real, heading: real,
    width: real, length: real, widthOffset: real, lengthOffset: real, timestamp: real)

  /** What pressing Convert produces: nothing without an own-ship stroke,
      a `ZeroDivisionError` for a zero horizon, or the records. */
  datatype ExportResult =
    | NoOwnShip
    | ZeroHorizon
    | Exported(targets: seq<TargetRecord>, route: RouteItem, startTime: real, nav: NavRecord)

  /** `start.y - end.y` of a stroke. */
  function Rise(s: Stroke): real {
    (s.start.y - s.end.y) as real
  }

  /** `start.x - end.x` of a stroke. */
  function Across(s: Stroke): real {
    (s.start.x - s.end.x) as real
  }

  /** The squared pixel length of a stroke. */
  function PixelSq(s: Stroke): real {
    Rise(s) * Rise(s) + Across(s) * Across(s)
  }

  /** The stroke length in nautical miles: pixels over the scale. */
  function Length(env: Env, s: Stroke): real {
    env.sqrt(PixelSq(s)) / Scale
  }

  /** The course of a stroke: `degrees(atan2(dy, dx)) + 90`. */
  function Course(env: Env, s: Stroke): real {
    Degrees(env.atan2(Rise(s), Across(s))) + 90.0
  }

  /** The pixel offset `target.end.x - ship.end.x`. */
  function OffsetX(t: Stroke, ship: Stroke): real {
    (t.end.x - ship.end.x) as real
  }

  /** The pixel offset `target.end.y - ship.end.y`. */
  function OffsetY(t: Stroke, ship: Stroke): real {
    (t.end.y - ship.end.y) as real
  }

  /** The strokes tagged as own ship, in list order. */
  function OwnShips(strokes: seq<Stroke>): (r: seq<Stroke>)
    ensures |r| <= |strokes|
    ensures forall i :: 0 <= i < |r| ==> r[i].tag == Our
  {
    if |strokes| == 0 then []
    else (if strokes[0].tag == Our then [strokes[0]] else []) + OwnShips(strokes[1..])
  }

  /** The strokes not tagged as own ship, in list order. */
  function Targets(strokes: seq<Stroke>): (r: seq<Stroke>)
    ensures |r| <= |strokes|
    ensures forall i :: 0 <= i < |r| ==> r[i].tag != Our
  {
    if |strokes| == 0 then []
    else (if strokes[0].tag != Our then [strokes[0]] else []) + Targets(strokes[1..])
  }

  /** The filters select exactly the strokes with their tag. */
  lemma {:induction false} FilterMembership(strokes: seq<Stroke>)
    ensures forall s :: s in OwnShips(strokes) <==> s in strokes && s.tag == Our
    ensures forall s :: s in Targets(strokes) <==> s in strokes && s.tag != Our
    decreases |strokes|
  {
    if |strokes| > 0 {
      FilterMembership(strokes[1..]);
      assert strokes == [strokes[0]] + strokes[1..];
    }
  }

  /** The own-ship filter distributes over concatenation: it keeps the
      relative order of the strokes it selects. */
  lemma {:induction false} OwnShipsAppend(s: seq<Stroke>, t: seq<Stroke>)
    ensures OwnShips(s + t) == OwnShips(s) + OwnShips(t)
    decreases |s|
  {
    if |s| == 0 {
      assert s + t == t;
    } else {
      var h := if s[0].tag == Our then [s[0]] else [];
      assert (s + t)[0] == s[0];
      assert (s + t)[1..] == s[1..] + t;
      assert OwnShips(s + t) == h + OwnShips(s[1..] + t);
      OwnShipsAppend(s[1..], t);
      assert OwnShips(s) == h + OwnShips(s[1..]);
    }
  }

  /** The target filter distributes over concatenation: it keeps the
      relative order of the strokes it selects. */
  lemma {:induction false} TargetsAppend(s: seq<Stroke>, t: seq<Stroke>)
    ensures Targets(s + t) == Targets(s) + Targets(t)
    decreases |s|
  {
    if |s| == 0 {
      assert s + t == t;
    } else {
      var h := if s[0].tag != Our then [s[0]] else [];
      assert (s + t)[0] == s[0];
      assert (s + t)[1..] == s[1..] + t;
      assert Targets(s + t) == h + Targets(s[1..] + t);
      TargetsAppend(s[1..], t);
      assert Targets(s) == h + Targets(s[1..]);
    }
  }

  /** The two filters split the strokes: every stroke lands in exactly one
      of them, as often as it occurs. */
  lemma {:induction false} FiltersPartition(strokes: seq<Stroke>)
    ensures multiset(OwnShips(strokes)) + multiset(Targets(strokes)) == multiset(strokes)
    decreases |strokes|
  {
    if |strokes| > 0 {
      FiltersPartition(strokes[1..]);
      assert strokes == [strokes[0]] + strokes[1..];
    }
  }

  /** `ship` is the first own-ship stroke of the list: when the stroke at
      `k` is the first one tagged as own ship, it is the one exported. */
  lemma {:induction false} FirstOwnShip(strokes: seq<Stroke>, k: nat)
    requires k < |strokes| && strokes[k].tag == Our
    requires forall j :: 0 <= j < k ==> strokes[j].tag != Our
    ensures |OwnShips(strokes)| > 0 && OwnShips(strokes)[0] == strokes[k]
    decreases k
  {
    if k > 0 {
      FirstOwnShip(strokes[1..], k - 1);
    }
  }

  /** There is an own ship to export exactly when some stroke is tagged as
      own ship, and the exported one is among the strokes. */
  lemma {:induction false} OwnShipPresent(strokes: seq<Stroke>)
    ensures |OwnShips(strokes)| > 0 <==> exists i :: 0 <= i < |strokes| && strokes[i].tag == Our
    ensures |OwnShips(strokes)| > 0 ==> OwnShips(strokes)[0] in strokes
    decreases |strokes|
  {
    if |strokes| > 0 {
      OwnShipPresent(strokes[1..]);
      if strokes[0].tag != Our && |OwnShips(strokes[1..])| > 0 {
        var i :| 0 <= i < |strokes[1..]| && strokes[1..][i].tag == Our;
        assert strokes[i + 1].tag == Our;
      }
      if strokes[0].tag != Our {
        forall i | 0 <= i < |strokes| && strokes[i].tag == Our
          ensures |OwnShips(strokes[1..])| > 0
        {
          assert strokes[1..][i - 1] == strokes[i];
        }
      }
    }
  }

  /** One target record: positioned from the end-point offset to the own
      ship, moving at its stroke length over the horizon. */
  function TargetOf(env: Env, ship: Stroke, t: Stroke, lat: real, lon: real, horizon: real, now: real): TargetRecord
    requires horizon != 0.0
  {
    var c := env.coordsGlobal(OffsetX(t, ship), OffsetY(t, ship), lat, lon);
    TargetRecord("target", 0, c.0, c.1, Length(env, t) / horizon, Course(env, t), 5.0, 0, now)
  }

  /** `convert_file` on the stroke list and the spin box values, with the
      clock reading `now`. */
  function Convert(env: Env, strokes: seq<Stroke>, lat: real, lon: real, horizon: real, now: real)
    : (r: ExportResult)
    ensures r == NoOwnShip <==> forall i :: 0 <= i < |strokes| ==> strokes[i].tag != Our
    ensures r == ZeroHorizon <==> (exists i :: 0 <= i < |strokes| && strokes[i].tag == Our) && horizon == 0.0
    ensures r.Exported? ==> |OwnShips(strokes)| > 0
    ensures r.Exported? ==>
      var ship := OwnShips(strokes)[0];
      && ship in strokes && ship.tag == Our
      && |r.targets| == |Targets(strokes)|
      && (forall i :: 0 <= i < |r.targets| ==>
            r.targets[i] == TargetOf(env, ship, Targets(strokes)[i], lat, lon, horizon, now))
      && r.route.beginAngle == Course(env, ship)
      && r.nav.cog == Course(env, ship) && r.nav.heading == Course(env, ship)
      && r.route.curve == 0
      && r.route.duration == horizon * 3600.0
      && r.route.length == Length(env, ship)
      && r.route.lat == lat && r.route.lon == lon
      && r.nav.lat == lat && r.nav.lon == lon
      && r.nav.sog * horizon == Length(env, ship)
      && r.startTime == now && r.nav.timestamp == now
  {
    OwnShipPresent(strokes);
    var ships := OwnShips(strokes);
    if |ships| == 0 then NoOwnShip
    else if horizon == 0.0 then ZeroHorizon
    else
      var ship := ships[0];
      var ts := Targets(strokes);
      var course := Course(env, ship);
      var dist := Length(env, ship);
      var vel := dist / horizon;
      Exported(
        seq(|ts|, i requires 0 <= i < |ts| => TargetOf(env, ship, ts[i], lat, lon, horizon, now)),
        RouteItem(course, 0, horizon * 3600.0, lat, lon, dist, 2, 2),
        now,
        NavRecord(0, lat, lon, vel, vel, course, course, 16.0, 100.0, 10.0, 15.0, now))
  }

  /** With the editor invariant the own ship is the first stroke and the
      targets are the remaining strokes, in drawing order. */
  lemma {:induction false} SplitUnderInv(strokes: seq<Stroke>)
    requires |strokes| > 0 && strokes[0].tag == Our
    requires forall i :: 1 <= i < |strokes| ==> strokes[i].tag == Foreign
    ensures OwnShips(strokes) == [strokes[0]]
    ensures Targets(strokes) == strokes[1..]
  {
    AllTargets(strokes[1..]);
  }

  /** A list of target strokes is kept whole by the target filter and has
      no own ship. */
  lemma {:induction false} AllTargets(strokes: seq<Stroke>)
    requires forall i :: 0 <= i < |strokes| ==> strokes[i].tag == Foreign
    ensures Targets(strokes) == strokes
    ensures OwnShips(strokes) == []
  {
    if |strokes| > 0 {
      AllTargets(strokes[1..]);
    }
  }

  /** Export from any state the editor reaches: one target record per
      stroke after the first, in drawing order, each relative to the first
      stroke, the own ship. */
  lemma ExportFromEditor(env: Env, e: Editor, now: real)
    requires Inv(e)
    requires |e.strokes| > 0 && e.horizon != 0.0
    ensures var r := Convert(env, e.strokes, e.lat, e.lon, e.horizon, now);
      && r.Exported?
      && |r.targets| == |e.strokes| - 1
      && r.route.length == Length(env, e.strokes[0])
      && forall i :: 1 <= i < |e.strokes| ==>
           r.targets[i - 1] == TargetOf(env, e.strokes[0], e.strokes[i], e.lat, e.lon, e.horizon, now)
  {
    SplitUnderInv(e.strokes);
    assert forall i :: 1 <= i < |e.strokes| ==> e.strokes[1..][i - 1] == e.strokes[i];
  }

  /** An empty stroke list, as right after construction or a clear, exports
      nothing. */
  lemma NothingAfterClear(env: Env, e: Editor, ev: Event, now: real)
    requires ev.ClearField? || ev.Resize?
    ensures var c := Step(e, ev); Convert(env, c.strokes, c.lat, c.lon, c.horizon, now) == NoOwnShip
  {
  }

  /** The route item as the plotter reads a leg: a straight leg with the
      stroke length and `3600 * horizon` seconds. */
  function RouteLeg(route: RouteItem): Kinematics.Leg {
    Kinematics.Leg(route.beginAngle, route.curve as real, route.length, route.duration, 0.0, 0.0)
  }

  /** The exported route and navigation record agree: the route leg's
      speed in knots, `length / duration * 3600`, is the exported `SOG` and
      `STW`, and its `begin_angle` is the exported `COG` and heading. */
  lemma RouteAgreesWithNav(env: Env, strokes: seq<Stroke>, lat: real, lon: real, horizon: real, now: real)
    requires Convert(env, strokes, lat, lon, horizon, now).Exported?
    ensures var r := Convert(env, strokes, lat, lon, horizon, now);
      && RouteLeg(r.route).duration != 0.0
      && RouteLeg(r.route).curve == 0.0
      && Kinematics.Vel(RouteLeg(r.route)) * 3600.0 == r.nav.sog == r.nav.stw
      && r.route.beginAngle == r.nav.cog == r.nav.heading
  {
    var r := Convert(env, strokes, lat, lon, horizon, now);
    var d := r.route.length;
    HoursToSeconds(d, horizon);
  }

  /** A length over `3600 * h` seconds, times 3600, is the length over `h`
      hours. */
  lemma HoursToSeconds(d: real, h: real)
    requires h != 0.0
    ensures h * 3600.0 != 0.0
    ensures d / (h * 3600.0) * 3600.0 == d / h
  {
    assert d / (h * 3600.0) * (h * 3600.0) == d;
  }

  /** A stroke moved by `(dx, dy)` pixels. */
  function Shift(s: Stroke, dx: int, dy: int): Stroke {
    Stroke(s.tag, Point(s.start.x + dx, s.start.y + dy), Point(s.end.x + dx, s.end.y + dy))
  }

  /** Every stroke moved by `(dx, dy)` pixels. */
  function ShiftAll(strokes: seq<Stroke>, dx: int, dy: int): (r: seq<Stroke>)
    ensures |r| == |strokes|
    ensures forall i :: 0 <= i < |strokes| ==> r[i] == Shift(strokes[i], dx, dy)
  {
    seq(|strokes|, i requires 0 <= i < |strokes| => Shift(strokes[i], dx, dy))
  }

  /** Moving strokes commutes with the own-ship filter. */
  lemma {:induction false} ShiftOwnShips(strokes: seq<Stroke>, dx: int, dy: int)
    ensures OwnShips(ShiftAll(strokes, dx, dy)) == ShiftAll(OwnShips(strokes), dx, dy)
    decreases |strokes|
  {
    if |strokes| > 0 {
      var moved := ShiftAll(strokes, dx, dy);
      assert moved[1..] == ShiftAll(strokes[1..], dx, dy);
      ShiftOwnShips(strokes[1..], dx, dy);
      var h := if strokes[0].tag == Our then [strokes[0]] else [];
      assert OwnShips(moved) == ShiftAll(h, dx, dy) + OwnShips(moved[1..]);
      assert ShiftAll(h + OwnShips(strokes[1..]), dx, dy)
          == ShiftAll(h, dx, dy) + ShiftAll(OwnShips(strokes[1..]), dx, dy);
    }
  }

  /** Moving strokes commutes with the target filter. */
  lemma {:induction false} ShiftTargets(strokes: seq<Stroke>, dx: int, dy: int)
    ensures Targets(ShiftAll(strokes, dx, dy)) == ShiftAll(Targets(strokes), dx, dy)
    decreases |strokes|
  {
    if |strokes| > 0 {
      var moved := ShiftAll(strokes, dx, dy);
      assert moved[1..] == ShiftAll(strokes[1..], dx, dy);
      ShiftTargets(strokes[1..], dx, dy);
      var h := if strokes[0].tag != Our then [strokes[0]] else [];
      assert Targets(moved) == ShiftAll(h, dx, dy) + Targets(moved[1..]);
      assert ShiftAll(h + Targets(strokes[1..]), dx, dy)
          == ShiftAll(h, dx, dy) + ShiftAll(Targets(strokes[1..]), dx, dy);
    }
  }

  /** A target record depends only on where the target's end point lies
      relative to the own ship's and on the stroke itself up to position:
      moving both strokes by the same amount leaves it unchanged. */
  lemma TargetTranslation(env: Env, ship: Stroke, t: Stroke, dx: int, dy: int,
                          lat: real, lon: real, horizon: real, now: real)
    requires horizon != 0.0
    ensures TargetOf(env, Shift(ship, dx, dy), Shift(t, dx, dy), lat, lon, horizon, now)
         == TargetOf(env, ship, t, lat, lon, horizon, now)
  {
    ShiftKeepsShape(env, t, dx, dy);
    assert OffsetX(Shift(t, dx, dy), Shift(ship, dx, dy)) == OffsetX(t, ship);
    assert OffsetY(Shift(t, dx, dy), Shift(ship, dx, dy)) == OffsetY(t, ship);
  }

  /** Export is independent of where on the canvas the scenario is drawn:
      moving every stroke by the same amount gives the same records. */
  lemma ConvertTranslation(env: Env, strokes: seq<Stroke>, dx: int, dy: int,
                           lat: real, lon: real, horizon: real, now: real)
    ensures Convert(env, ShiftAll(strokes, dx, dy), lat, lon, horizon, now) == Convert(env, strokes, lat, lon, horizon, now)
  {
    var moved := ShiftAll(strokes, dx, dy);
    ShiftOwnShips(strokes, dx, dy);
    ShiftTargets(strokes, dx, dy);
    if |OwnShips(strokes)| > 0 && horizon != 0.0 {
      var ship := OwnShips(strokes)[0];
      assert OwnShips(moved)[0] == Shift(ship, dx, dy);
      ShiftKeepsShape(env, ship, dx, dy);
      var ts := Targets(strokes);
      forall i | 0 <= i < |ts|
        ensures TargetOf(env, Shift(ship, dx, dy), Targets(moved)[i], lat, lon, horizon, now)
             == TargetOf(env, ship, ts[i], lat, lon, horizon, now)
      {
        TargetTranslation(env, ship, ts[i], dx, dy, lat, lon, horizon, now);
      }
    }
  }

  /** A moved stroke keeps its length and its course. */
  lemma ShiftKeepsShape(env: Env, s: Stroke, dx: int, dy: int)
    ensures Length(env, Shift(s, dx, dy)) == Length(env, s)
    ensures Course(env, Shift(s, dx, dy)) == Course(env, s)
  {
    assert Rise(Shift(s, dx, dy)) == Rise(s);
    assert Across(Shift(s, dx, dy)) == Across(s);
    assert PixelSq(Shift(s, dx, dy)) == PixelSq(s);
  }
}

=== FILE: kinematics.dfy ===
/**
 One leg of a route and the position the plotter draws for it at an elapsed
 time: a straight line for `curve == 0`, otherwise an arc of radius
 `1 / curve` whose formula carries the continuity offsets `dx`, `dy`
 (main.py, `plot_items` and `plot_position`).
 */
module Kinematics {
  import opened Values

  /** The numeric fields of a normalised route item: `begin_angle`, `curve`,
      `length`, `duration` and the local start point `X` (north) and `Y`
      (east). */
  datatype Leg = Leg(bearing: real, curve: real, length: real, duration: real, x: real, y: real)

  /** A leg the plotter gets through without raising: `length / duration`
      needs a non-zero duration, and an arc needs a non-zero preview step
      `degrees(length * curve) / 100`, that is a non-zero length. */
  predicate Plottable(leg: Leg) {
    leg.duration != 0.0 && (leg.curve != 0.0 ==> leg.length != 0.0)
  }

  /** Reads a leg from a normalised item; `None` where Python raises a
      `KeyError`, a `TypeError` or a `ZeroDivisionError`. */
  function ToLeg(item: map<string, Json>): (r: Option<Leg>)
    ensures r.Some? <==>
      && (forall k :: k in LegKeys ==> k in item && item[k].Num?)
      && item["duration"].n != 0.0
      && (item["curve"].n != 0.0 ==> item["length"].n != 0.0)
    ensures r.Some? ==>
      && Plottable(r.value)
      && r.value.duration == item["duration"].n
      && r.value.curve == item["curve"].n
      && r.value.length == item["length"].n
      && r.value.bearing == item["begin_angle"].n
      && r.value.x == item["X"].n && r.value.y == item["Y"].n
  {
    if forall k :: k in LegKeys ==> k in item && item[k].Num? then
      var leg := Leg(item["begin_angle"].n, item["curve"].n, item["length"].n,
                     item["duration"].n, item["X"].n, item["Y"].n);
      if Plottable(leg) then Some(leg) else None
    else None
  }

  /** The item keys the plotter reads as numbers. */
  const LegKeys: set<string> := {"begin_angle", "curve", "length", "duration", "X", "Y"}

  /** The leg's constant speed in nautical miles per second. */
  function Vel(leg: Leg): (v: real)
    requires leg.duration != 0.0
  {
    leg.length / leg.duration
  }

  /** The arc radius `Rarc = 1 / curve`, signed like the curvature. */
  function Radius(leg: Leg): (r: real)
    requires leg.curve != 0.0
  {
    1.0 / leg.curve
  }

  /** The angular rate `-vel * curve` of an arc. */
  function AngularRate(leg: Leg): (w: real)
    requires leg.duration != 0.0
  {
    -Vel(leg) * leg.curve
  }

  /** The initial phase `radians(90 - begin_angle)` of an arc. */
  function Phase0(leg: Leg): real {
    Radians(90.0 - leg.bearing)
  }

  /** The phase `a0 + w * te` of an arc after `te` seconds. */
  function Phase(leg: Leg, te: real): real
    requires leg.duration != 0.0
  {
    Phase0(leg) + AngularRate(leg) * te
  }

  /** The distance `vel * te` covered on a straight leg after `te` seconds. */
  function Run(leg: Leg, te: real): real
    requires leg.duration != 0.0
  {
    Vel(leg) * te
  }

  /** The bearing a quarter turn towards the centre of an arc:
      `begin_angle + 90` for a positive curvature, `begin_angle - 90` for a
      negative one. */
  function CentreBearing(leg: Leg): real {
    if leg.curve > 0.0 then leg.bearing + 90.0 else leg.bearing - 90.0
  }

  /** The arc centre `(Xc, Yc)` as computed before the offsets: the point at
      distance `1 / curve` from the origin of the frame, a quarter turn to
      the left of the bearing for a positive curvature, to the right for a
      negative one. */
  function ArcCentre(env: Env, leg: Leg): (real, real)
    requires leg.curve != 0.0
  {
    env.positions(CentreBearing(leg), Radius(leg))
  }

  /** The position on a straight leg after `te` seconds. */
  function LinePos(env: Env, leg: Leg, te: real): Pos
    requires leg.duration != 0.0
  {
    var d := env.positions(leg.bearing, Run(leg, te));
    Pos(leg.y + d.1, leg.x + d.0)
  }

  /** The position on an arc after `te` seconds, with the continuity offsets
      `dx`, `dy` computed from the same circle expression at the start. */
  function ArcPos(env: Env, leg: Leg, te: real): Pos
    requires leg.curve != 0.0 && leg.duration != 0.0
  {
    var r := Radius(leg);
    var c := ArcCentre(env, leg);
    var dx := r * env.cos(Phase0(leg)) + c.0 - leg.x;
    var dy := r * env.sin(Phase0(leg)) + c.1 + leg.y;
    var xt := r * env.cos(Phase(leg, te)) + c.0 - dx;
    var yt := -(r * env.sin(Phase(leg, te)) + c.1 - dy);
    Pos(yt, xt)
  }

  /** The position `plot_position` records for a leg after `te` seconds:
      the line formula exactly when `curve == 0`, the arc formula
      otherwise. */
  function Sample(env: Env, leg: Leg, te: real): Pos
    requires leg.duration != 0.0
  {
    if leg.curve == 0.0 then LinePos(env, leg, te) else ArcPos(env, leg, te)
  }

  /** The plotter's straight segment for a line leg: from the item's
      start point to the start point plus `positions(begin_angle, length)`. */
  function SegmentEnd(env: Env, leg: Leg): Pos {
    var d := env.positions(leg.bearing, leg.length);
    Pos(leg.y + d.1, leg.x + d.0)
  }

  /** The dispatch on `curve == 0`: a line leg moves from its start point by
      `positions(begin_angle, vel * te)`, with no radius involved. */
  lemma LineDispatch(env: Env, leg: Leg, te: real)
    requires leg.duration != 0.0 && leg.curve == 0.0
    ensures var d := env.positions(leg.bearing, Run(leg, te));
      Sample(env, leg, te) == Pos(leg.y + d.1, leg.x + d.0)
  {
  }

  /** The dispatch on `curve != 0`: an arc leg moves along the circle of
      radius `Rarc = 1 / curve` at the angular rate `-vel * curve`.
      Whatever `cos`, `sin` and the centre `(Xc, Yc)` are, the offsets
      `dx`, `dy` cancel the centre: the position is the item's own start
      point moved by the chord between the initial phase and the current
      one. */
  lemma ArcDispatch(env: Env, leg: Leg, te: real)
    requires leg.duration != 0.0 && leg.curve != 0.0
    ensures var r := Radius(leg);
      && Sample(env, leg, te).north == leg.x + (r * env.cos(Phase(leg, te)) - r * env.cos(Phase0(leg)))
      && Sample(env, leg, te).east == leg.y - (r * env.sin(Phase(leg, te)) - r * env.sin(Phase0(leg)))
  {
  }

  /** Arc continuity: at `te == 0` the arc formula gives back the item's own
      stored start point exactly, for any `cos`, `sin` and `positions`. */
  lemma ArcStartsAtItem(env: Env, leg: Leg)
    requires leg.duration != 0.0 && leg.curve != 0.0
    ensures Sample(env, leg, 0.0) == Pos(leg.y, leg.x)
  {
    ArcDispatch(env, leg, 0.0);
    assert Phase(leg, 0.0) == Phase0(leg);
  }

  /** A line leg starts at the item's stored start point as soon as
      `positions` maps a zero distance to a zero displacement. */
  lemma LineStartsAtItem(env: Env, leg: Leg)
    requires leg.duration != 0.0 && leg.curve == 0.0
    requires env.positions(leg.bearing, 0.0) == (0.0, 0.0)
    ensures Sample(env, leg, 0.0) == Pos(leg.y, leg.x)
  {
    LineDispatch(env, leg, 0.0);
    assert Run(leg, 0.0) == 0.0;
  }

  /** A line leg evaluated at `te == duration` is at the far end of the
      segment the plotter draws for it. */
  lemma LineEndsAtSegmentEnd(env: Env, leg: Leg)
    requires leg.duration != 0.0 && leg.curve == 0.0
    ensures Sample(env, leg, leg.duration) == SegmentEnd(env, leg)
  {
    LineDispatch(env, leg, leg.duration);
    assert Run(leg, leg.duration) == leg.length;
  }

  /** What a sample depends on: a line leg only on `positions`, never on
      `cos` or `sin`; an arc leg only on `cos` and `sin`, never on
      `positions`, because the centre it computes cancels out. */
  lemma SampleDependsOn(env: Env, env': Env, leg: Leg, te: real)
    requires leg.duration != 0.0
    requires leg.curve == 0.0 ==> env.positions == env'.positions
    requires leg.curve != 0.0 ==> env.cos == env'.cos && env.sin == env'.sin
    ensures Sample(env, leg, te) == Sample(env', leg, te)
  {
    if leg.curve == 0.0 {
      LineDispatch(env, leg, te);
      LineDispatch(env', leg, te);
    } else {
      ArcDispatch(env, leg, te);
      ArcDispatch(env', leg, te);
    }
  }

  /** The fixed point an arc turns around once the offsets `dx`, `dy` are
      applied: the start point moved back by the radius along the initial
      phase, not the centre `(Xc, Yc)` the plotter computes. */
  function EffectiveCentre(env: Env, leg: Leg): Pos
    requires leg.curve != 0.0
  {
    Pos(leg.y + Radius(leg) * env.sin(Phase0(leg)), leg.x - Radius(leg) * env.cos(Phase0(leg)))
  }

  /** The arc keeps the distance `|1 / curve|` from its effective centre
      whenever the trigonometric identity holds at the current phase. */
  lemma ArcOnCircle(env: Env, leg: Leg, te: real)
    requires leg.duration != 0.0 && leg.curve != 0.0
    requires env.cos(Phase(leg, te)) * env.cos(Phase(leg, te)) + env.sin(Phase(leg, te)) * env.sin(Phase(leg, te)) == 1.0
    ensures SqDist(Sample(env, leg, te), EffectiveCentre(env, leg)) == Radius(leg) * Radius(leg)
  {
    ArcDispatch(env, leg, te);
    ChordFromCentre(Sample(env, leg, te), EffectiveCentre(env, leg), Radius(leg),
      env.cos(Phase(leg, te)), env.sin(Phase(leg, te)));
  }

  /** A point at offset `(-r * s, r * c)` from a centre, with `c^2 + s^2 == 1`,
      is at distance `|r|` from it. */
  lemma ChordFromCentre(p: Pos, centre: Pos, r: real, c: real, s: real)
    requires p.north - centre.north == r * c
    requires p.east - centre.east == -(r * s)
    requires c * c + s * s == 1.0
    ensures SqDist(p, centre) == r * r
  {
    calc {
      SqDist(p, centre);
      (r * s) * (r * s) + (r * c) * (r * c);
      r * r * (c * c + s * s);
      r * r;
    }
  }
}

=== FILE: plot.dfy ===
/**
 One frame of the plotter (main.py, `plot_data`): the vessels of a prepared
 store are walked in order up to the origin sentinel, each records its
 position at `p_time` times its own total time, the first vessel's leg
 speeds form the velocity series, and the recorded positions are banded
 against the first one.
 */
module Plot {
  import opened Values
  import opened Kinematics
  import opened Sampler
  import opened Proximity
  import opened Assembly

  /** What a successful `plot_data` call leaves behind: the recorded
      positions (`current_coords`), the proximity lines, and the returned
      velocity series. */
  datatype Frame = Frame(positions: seq<Pos>, links: seq<Link>, velocities: seq<real>)

  /** The velocity series contribution of one vessel: the speed of every
      leg, in leg order. */
  function Velocities(legs: seq<Leg>): (vs: seq<real>)
    requires forall i :: 0 <= i < |legs| ==> legs[i].duration != 0.0
    ensures |vs| == |legs|
    ensures forall i :: 0 <= i < |legs| ==> vs[i] == legs[i].length / legs[i].duration
  {
    seq(|legs|, i requires 0 <= i < |legs| => Vel(legs[i]))
  }

  /** What one vessel adds: its recorded position at `p_time * time`, and
      its speeds when `datas.index(data) == 0`, that is when it equals the
      first entry of the store. */
  function VesselPart(env: Env, v: Entry, head: Entry, p: real): Option<(seq<Pos>, seq<real>)>
    requires v.Vessel?
  {
    match Legs(v.items)
    case None => None
    case Some(legs) =>
      Some((Recorded(env, legs, QueryTime(p, v.time), |legs|), if v == head then Velocities(legs) else []))
  }

  /** The vessel loop of `plot_data` over `entries`, stopping at the first
      entry that is not a vessel (`isinstance(data, list)`). */
  function Scan(env: Env, entries: seq<Entry>, head: Entry, p: real): Option<(seq<Pos>, seq<real>)> {
    if |entries| == 0 || entries[0].Origin? then Some(([], []))
    else match VesselPart(env, entries[0], head, p)
      case None => None
      case Some(a) =>
        match Scan(env, entries[1..], head, p)
        case None => None
        case Some(b) => Some((a.0 + b.0, a.1 + b.1))
  }

  /** `plot_data`: the recorded positions, the lines from the first of
      them, and the velocity series.  An empty record list raises
      `IndexError` at `current_coords[0]`. */
  function PlotData(env: Env, store: seq<Entry>, p: real, radius: real): (r: Option<Frame>)
    ensures r.Some? ==> |store| > 0 && Scan(env, store, store[0], p).Some?
    ensures r.Some? ==> r.value.positions == Scan(env, store, store[0], p).value.0
    ensures r.Some? ==> r.value.velocities == Scan(env, store, store[0], p).value.1
    ensures |store| > 0 && Scan(env, store, store[0], p).Some? ==>
      (r.None? <==> Scan(env, store, store[0], p).value.0 == [])
    ensures r.Some? ==> |r.value.positions| > 0
    ensures r.Some? ==> forall l :: l in r.value.links ==>
      && l.target in r.value.positions
      && l.target != r.value.positions[0]
      && l.band == Classify(radius, SqDist(r.value.positions[0], l.target))
      && l.band != Clear
    ensures r.Some? ==>
      var cc := r.value.positions;
      forall i :: 0 <= i < |cc| && cc[i] != cc[0] && Classify(radius, SqDist(cc[0], cc[i])) != Clear ==>
        Link(cc[i], Classify(radius, SqDist(cc[0], cc[i]))) in r.value.links
  {
    if |store| == 0 then None
    else match Scan(env, store, store[0], p)
      case None => None
      case Some((cc, vel)) =>
        if |cc| == 0 then None
        else Some(Frame(cc, Links(cc[0], cc, radius), vel))
  }

  /** The vessels the loop visits: the entries before the first
      non-vessel one. */
  function Visited(entries: seq<Entry>): (vs: seq<Entry>)
    ensures |vs| <= |entries| && vs == entries[..|vs|]
    ensures forall i :: 0 <= i < |vs| ==> vs[i].Vessel?
    ensures |vs| < |entries| ==> entries[|vs|].Origin?
  {
    if |entries| == 0 || entries[0].Origin? then []
    else
      var rest := Visited(entries[1..]);
      assert entries[1..][..|rest|] == entries[1..|rest| + 1];
      [entries[0]] + rest
  }

  /** The loop ignores everything after the origin sentinel: appending
      entries behind it changes nothing. */
  lemma {:induction false} ScanStopsAtOrigin(env: Env, vs: seq<Entry>, o: Anchor, tail: seq<Entry>, head: Entry, p: real)
    ensures Scan(env, vs + [Origin(o)] + tail, head, p) == Scan(env, vs + [Origin(o)], head, p)
  {
    if |vs| > 0 {
      assert (vs + [Origin(o)] + tail)[1..] == vs[1..] + [Origin(o)] + tail;
      assert (vs + [Origin(o)])[1..] == vs[1..] + [Origin(o)];
      ScanStopsAtOrigin(env, vs[1..], o, tail, head, p);
    }
  }

  /** A vessel's stored time agrees with its durations, as the preparation
      guarantees. */
  predicate Consistent(v: Entry) {
    v.Vessel? && v.time == Sum(Assembly.Durations(v.items))
  }

  /** The vessels of a store that the application can show: consistent,
      readable, with at least one leg and positive durations. */
  predicate Showable(v: Entry) {
    && Consistent(v)
    && Legs(v.items).Some?
    && |v.items| > 0
    && Forward(Legs(v.items).value)
  }

  /** A showable vessel's total time is positive. */
  lemma ShowablePositiveTime(v: Entry)
    requires Showable(v)
    ensures v.time > 0.0
    ensures v.time == Total(Legs(v.items).value)
  {
    var legs := Legs(v.items).value;
    TimeIsTotal(v.items, legs);
    StartOfEnd(legs);
    StartOfNext(legs, 0);
    StartOfMonotone(legs, 1, |legs|);
    assert StartOf(legs, 0) == 0.0;
  }

  /** Before the end of its timeline a showable vessel records exactly one
      position. */
  lemma VesselPartInside(env: Env, v: Entry, head: Entry, p: real)
    requires 0.0 <= p < 1.0
    requires Showable(v)
    ensures VesselPart(env, v, head, p).Some?
    ensures |VesselPart(env, v, head, p).value.0| == 1
  {
    var legs := Legs(v.items).value;
    ShowablePositiveTime(v);
    ScaledInside(p, v.time);
    StartOfEnd(legs);
    RecordedCount(env, legs, QueryTime(p, v.time), |legs|);
  }

  /** From `p_time == 1` on a showable vessel records nothing. */
  lemma VesselPartAfter(env: Env, v: Entry, head: Entry, p: real)
    requires 1.0 <= p
    requires Showable(v)
    ensures VesselPart(env, v, head, p).Some?
    ensures VesselPart(env, v, head, p).value.0 == []
  {
    var legs := Legs(v.items).value;
    ShowablePositiveTime(v);
    ScaledAfter(p, v.time);
    StartOfEnd(legs);
    RecordedCount(env, legs, QueryTime(p, v.time), |legs|);
  }

  /** Showability of the visited vessels carries over to the rest of the
      list. */
  lemma VisitedTail(entries: seq<Entry>)
    requires forall i :: 0 <= i < |Visited(entries)| ==> Showable(entries[i])
    requires |entries| > 0 && entries[0].Vessel?
    ensures Showable(entries[0])
    ensures forall i :: 0 <= i < |Visited(entries[1..])| ==> Showable(entries[1..][i])
    ensures |Visited(entries[1..])| == |Visited(entries)| - 1
  {
    assert Visited(entries)[1..] == Visited(entries[1..]);
    forall i | 0 <= i < |Visited(entries[1..])| ensures Showable(entries[1..][i]) {
      assert entries[1..][i] == entries[i + 1];
    }
  }

  /** Before the end of the timeline every showable vessel records exactly
      one position, so the loop records one position per vessel. */
  lemma {:induction false} OnePositionPerVessel(env: Env, entries: seq<Entry>, head: Entry, p: real)
    requires 0.0 <= p < 1.0
    requires forall i :: 0 <= i < |Visited(entries)| ==> Showable(entries[i])
    ensures Scan(env, entries, head, p).Some?
    ensures |Scan(env, entries, head, p).value.0| == |Visited(entries)|
  {
    if |entries| > 0 && entries[0].Vessel? {
      VisitedTail(entries);
      VesselPartInside(env, entries[0], head, p);
      OnePositionPerVessel(env, entries[1..], head, p);
    }
  }

  /** No clamp: from `p_time == 1` on no showable vessel is in any window,
      and nothing is recorded. */
  lemma {:induction false} EndOfTimelineRecordsNothing(env: Env, entries: seq<Entry>, head: Entry, p: real)
    requires 1.0 <= p
    requires forall i :: 0 <= i < |Visited(entries)| ==> Showable(entries[i])
    ensures Scan(env, entries, head, p).Some?
    ensures Scan(env, entries, head, p).value.0 == []
  {
    if |entries| > 0 && entries[0].Vessel? {
      VisitedTail(entries);
      VesselPartAfter(env, entries[0], head, p);
      EndOfTimelineRecordsNothing(env, entries[1..], head, p);
    }
  }

  /** The velocity series is the speed list of the first vessel alone,
      provided no later vessel is equal to it (`datas.index` compares by
      value). */
  lemma {:induction false} VelocitiesOfFirstVessel(env: Env, entries: seq<Entry>, head: Entry, p: real)
    requires Scan(env, entries, head, p).Some?
    requires head.Vessel? && Legs(head.items).Some?
    ensures |entries| > 0 && entries[0] == head ==>
      Scan(env, entries, head, p).value.1 == Velocities(Legs(head.items).value) + UnexpectedCopies(env, entries[1..], head)
    ensures (|entries| == 0 || entries[0] != head) ==>
      Scan(env, entries, head, p).value.1 == UnexpectedCopies(env, entries, head)
  {
    if |entries| > 0 && entries[0].Vessel? {
      VelocitiesOfFirstVessel(env, entries[1..], head, p);
    }
  }

  /** The speeds contributed by vessels equal to `head` further down the
      list: empty as soon as no visited vessel equals `head`. */
  function UnexpectedCopies(env: Env, entries: seq<Entry>, head: Entry): (vs: seq<real>)
    requires head.Vessel? && Legs(head.items).Some?
    ensures (forall i :: 0 <= i < |Visited(entries)| ==> entries[i] != head) ==> vs == []
  {
    if |entries| == 0 || entries[0].Origin? then []
    else
      assert Visited(entries)[1..] == Visited(entries[1..]);
      assert forall i :: 0 <= i < |Visited(entries[1..])| ==> entries[1..][i] == entries[i + 1];
      (if entries[0] == head then Velocities(Legs(head.items).value) else []) + UnexpectedCopies(env, entries[1..], head)
  }

  /** The series returned for a store whose first vessel is unique: one
      speed per leg of that vessel, `length / duration`, in leg order. */
  lemma VelocitySeries(env: Env, store: seq<Entry>, p: real, radius: real)
    requires PlotData(env, store, p, radius).Some?
    requires store[0].Vessel?
    requires forall i :: 1 <= i < |Visited(store)| ==> store[i] != store[0]
    ensures Legs(store[0].items).Some?
    ensures PlotData(env, store, p, radius).value.velocities == Velocities(Legs(store[0].items).value)
  {
    var head := store[0];
    assert Legs(head.items).Some?;
    VelocitiesOfFirstVessel(env, store, head, p);
    assert Visited(store)[1..] == Visited(store[1..]);
    assert forall i :: 0 <= i < |Visited(store[1..])| ==> store[1..][i] == store[i + 1];
  }

  /** The position a showable vessel records while leg `i` is active: that
      leg's sample at the time spent on it. */
  lemma VesselPartSample(env: Env, v: Entry, head: Entry, p: real, i: nat)
    requires Showable(v)
    requires i < |Legs(v.items).value|
    requires Active(Legs(v.items).value, i, QueryTime(p, v.time))
    ensures VesselPart(env, v, head, p).Some?
    ensures var legs := Legs(v.items).value;
      VesselPart(env, v, head, p).value.0 ==
        [Sample(env, legs[i], Elapsed(legs, i, QueryTime(p, v.time)))]
  {
    var legs := Legs(v.items).value;
    RecordedIsActiveLeg(env, legs, QueryTime(p, v.time), i, |legs|);
  }

  /** Before the end of the timeline the `k`-th recorded position is the
      one the `k`-th visited vessel records. */
  lemma {:induction false} ScanPositionAt(env: Env, entries: seq<Entry>, head: Entry, p: real, k: nat)
    requires 0.0 <= p < 1.0
    requires forall i :: 0 <= i < |Visited(entries)| ==> Showable(entries[i])
    requires k < |Visited(entries)|
    ensures Scan(env, entries, head, p).Some?
    ensures Showable(entries[k])
    ensures VesselPart(env, entries[k], head, p).Some?
    ensures |VesselPart(env, entries[k], head, p).value.0| == 1
    ensures k < |Scan(env, entries, head, p).value.0|
    ensures Scan(env, entries, head, p).value.0[k] == VesselPart(env, entries[k], head, p).value.0[0]
    decreases k
  {
    VisitedTail(entries);
    VesselPartInside(env, entries[0], head, p);
    OnePositionPerVessel(env, entries[1..], head, p);
    ScanCons(env, entries, head, p);
    var a := VesselPart(env, entries[0], head, p).value;
    var b := Scan(env, entries[1..], head, p).value;
    if k > 0 {
      var rest := entries[1..];
      assert rest[k - 1] == entries[k];
      ScanPositionAt(env, rest, head, p, k - 1);
      assert (a.0 + b.0)[k] == b.0[k - 1];
    }
  }

  /** One step of the vessel loop: a vessel's part comes before the rest. */
  lemma ScanCons(env: Env, entries: seq<Entry>, head: Entry, p: real)
    requires |entries| > 0 && entries[0].Vessel?
    requires VesselPart(env, entries[0], head, p).Some? && Scan(env, entries[1..], head, p).Some?
    ensures var a := VesselPart(env, entries[0], head, p).value;
      var b := Scan(env, entries[1..], head, p).value;
      Scan(env, entries, head, p) == Some((a.0 + b.0, a.1 + b.1))
  {
  }

  /** Frame positions are vessel samples: before the end of the timeline,
      position `k` of the frame is the sample of a leg of vessel `k` that
      is active at `p_time` times that vessel's time, at the time spent on
      that leg (`Sampler.AtMostOneActive`: there is only one such leg). */
  lemma FramePositions(env: Env, store: seq<Entry>, p: real, radius: real, k: nat)
    requires 0.0 <= p < 1.0
    requires forall j :: 0 <= j < |Visited(store)| ==> Showable(store[j])
    requires k < |Visited(store)|
    ensures PlotData(env, store, p, radius).Some?
    ensures |PlotData(env, store, p, radius).value.positions| == |Visited(store)|
    ensures Showable(store[k])
    ensures var legs := Legs(store[k].items).value;
      var t := QueryTime(p, store[k].time);
      exists i :: 0 <= i < |legs| && Active(legs, i, t) &&
        PlotData(env, store, p, radius).value.positions[k] == Sample(env, legs[i], Elapsed(legs, i, t))
  {
    OnePositionPerVessel(env, store, store[0], p);
    ScanPositionAt(env, store, store[0], p, k);
    var v := store[k];
    var legs := Legs(v.items).value;
    var t := QueryTime(p, v.time);
    ShowablePositiveTime(v);
    ScaledInside(p, v.time);
    StartOfEnd(legs);
    SomeActive(legs, t, |legs|);
    var i :| 0 <= i < |legs| && Active(legs, i, t);
    VesselPartSample(env, v, store[0], p, i);
  }

  /** No clamp, seen from the caller: from `p_time == 1` on, a store of
      showable vessels records nothing, `current_coords[0]` raises, and
      no frame is plotted. */
  lemma EndOfTimelineFails(env: Env, store: seq<Entry>, p: real, radius: real)
    requires 1.0 <= p
    requires forall j :: 0 <= j < |Visited(store)| ==> Showable(store[j])
    ensures PlotData(env, store, p, radius).None?
  {
    if |store| > 0 {
      EndOfTimelineRecordsNothing(env, store, store[0], p);
    }
  }
}

=== FILE: prepare.dfy ===
/**
 `prepare_file` as a whole (main.py lines 240-335): the file-kind dispatch,
 the fresh and the reload paths around the module-level store
 `data_json`, the plot, and the velocity step profile drawn when a figure
 is passed.
 */
module Prepare {
  import opened Values
  import opened Assembly
  import opened Sampler
  import opened Plot

  /** What a call returns: a constraints file drawn and `None` returned, a
      failure (`None` from the bare `except`), or the prepared store
      together with the frame plotted from it. */
  datatype Outcome = ConstraintsFile | Failed | Plotted(data: seq<Entry>, frame: Frame)

  /** One call of `prepare_file` on the parsed file `doc`, with the store
      `data_json` as left by earlier calls; the result pairs the outcome
      with the store afterwards.  The fresh path overwrites the store as
      soon as the file is assembled, before plotting. */
  function PrepareFile(env: Env, doc: Json, isLoaded: bool, store: seq<Entry>, p: real, radius: real)
    : (r: (Outcome, seq<Entry>))
    ensures CheckType(doc) == Some(Poly) ==> r == (ConstraintsFile, store)
    ensures r.0 == ConstraintsFile <==> CheckType(doc) == Some(Poly)
    ensures isLoaded ==> r.1 == store
    ensures !isLoaded && CheckType(doc) != Some(Poly) ==>
      r.1 == if Assemble(env, doc).Some? then Assemble(env, doc).value else store
    ensures r.0.Plotted? ==> r.1 == r.0.data && PlotData(env, r.0.data, p, radius) == Some(r.0.frame)
    ensures r.0 == Failed <==>
      && CheckType(doc) != Some(Poly)
      && if isLoaded then Reload(store).None? || PlotData(env, store, p, radius).None?
         else Assemble(env, doc).None? || PlotData(env, Assemble(env, doc).value, p, radius).None?
  {
    if CheckType(doc) == Some(Poly) then (ConstraintsFile, store)
    else if !isLoaded then
      match Assemble(env, doc)
      case None => (Failed, store)
      case Some(s) =>
        match PlotData(env, s, p, radius)
        case None => (Failed, s)
        case Some(f) => (Plotted(s, f), s)
    else
      match Reload(store)
      case None => (Failed, store)
      case Some(_) =>
        match PlotData(env, store, p, radius)
        case None => (Failed, store)
        case Some(f) => (Plotted(store, f), store)
  }

  /** The reload round trip: after a fresh call has plotted a file, a
      loaded call with the same time and radius plots the same frame from
      the store, whatever trajectory file it is handed. */
  lemma ReloadReproducesFrame(env: Env, doc: Json, doc2: Json, store0: seq<Entry>, p: real, radius: real)
    requires CheckType(doc) != Some(Poly) && CheckType(doc2) != Some(Poly)
    requires Assemble(env, doc).Some?
    requires PlotData(env, Assemble(env, doc).value, p, radius).Some?
    ensures PrepareFile(env, doc, false, store0, p, radius).0.Plotted?
    ensures var (o, s) := PrepareFile(env, doc, false, store0, p, radius);
      PrepareFile(env, doc2, true, s, p, radius) == (o, s)
  {
    var s := Assemble(env, doc).value;
    ReloadRecoversOrigin(env, doc, s);
  }

  /** In the application every slider position of a file whose vessels
      are showable plots one position per vessel, the first vessel's
      first. */
  lemma SliderFramePerVessel(env: Env, doc: Json, store0: seq<Entry>, tper: int, radius: real)
    requires CheckType(doc) != Some(Poly)
    requires Assemble(env, doc).Some?
    requires forall i :: 0 <= i < |doc.elems| ==> Showable(Assemble(env, doc).value[i])
    requires 0 <= tper <= 99
    ensures PrepareFile(env, doc, false, store0, SliderFraction(tper), radius).0.Plotted?
    ensures |PrepareFile(env, doc, false, store0, SliderFraction(tper), radius).0.frame.positions| == |doc.elems|
  {
    var s := Assemble(env, doc).value;
    var p := SliderFraction(tper);
    OriginIsLast(env, doc, s);
    assert Visited(s) == s[..|doc.elems|] by {
      VisitedUpToOrigin(s, |doc.elems|);
    }
    OnePositionPerVessel(env, s, s[0], p);
  }

  /** From `p_time == 1` on, a file whose vessels are showable fails:
      nothing is recorded, `current_coords[0]` raises inside `plot_data`,
      and the bare `except` returns `None`.  The store is still replaced by
      the assembled file. */
  lemma FileAtEndOfTimelineFails(env: Env, doc: Json, store0: seq<Entry>, p: real, radius: real)
    requires 1.0 <= p
    ensures
      && CheckType(doc) != Some(Poly)
      && Assemble(env, doc).Some?
      && (forall i :: 0 <= i < |doc.elems| ==> Showable(Assemble(env, doc).value[i]))
      ==>
      && PrepareFile(env, doc, false, store0, p, radius).0 == Failed
      && PrepareFile(env, doc, false, store0, p, radius).1 == Assemble(env, doc).value
  {
    if
      && CheckType(doc) != Some(Poly)
      && Assemble(env, doc).Some?
      && (forall i :: 0 <= i < |doc.elems| ==> Showable(Assemble(env, doc).value[i]))
    {
      var s := Assemble(env, doc).value;
      OriginIsLast(env, doc, s);
      assert Visited(s) == s[..|doc.elems|] by {
        VisitedUpToOrigin(s, |doc.elems|);
      }
      EndOfTimelineFails(env, s, p, radius);
    }
  }

  /** The visited prefix ends at the first origin entry. */
  lemma {:induction false} VisitedUpToOrigin(s: seq<Entry>, k: nat)
    requires k < |s| && s[k].Origin?
    requires forall i :: 0 <= i < k ==> s[i].Vessel?
    ensures Visited(s) == s[..k]
  {
    if k > 0 {
      VisitedUpToOrigin(s[1..], k - 1);
      assert s[..k] == [s[0]] + s[1..][..k - 1];
    }
  }

  /** The velocity step profile: for speed `v_i` the points `(i, 3600 v_i)`
      and `(i + 1, 3600 v_i)`, so each speed in knots holds over one unit
      of the leg axis. */
  method StepProfile(vel: seq<real>) returns (xs: seq<int>, ys: seq<real>)
    ensures |xs| == 2 * |vel| && |ys| == 2 * |vel|
    ensures forall i :: 0 <= i < |vel| ==>
      && xs[2 * i] == i && xs[2 * i + 1] == i + 1
      && ys[2 * i] == vel[i] * 3600.0 && ys[2 * i + 1] == vel[i] * 3600.0
    ensures forall j, k :: 0 <= j <= k < |xs| ==> xs[j] <= xs[k]
  {
    xs, ys := [], [];
    var n := 0;
    while n < |vel|
      invariant 0 <= n <= |vel|
      invariant |xs| == 2 * n && |ys| == 2 * n
      invariant forall i :: 0 <= i < n ==>
        && xs[2 * i] == i && xs[2 * i + 1] == i + 1
        && ys[2 * i] == vel[i] * 3600.0 && ys[2 * i + 1] == vel[i] * 3600.0
      invariant forall j :: 0 <= j < |xs| ==> xs[j] == (j + 1) / 2
    {
      xs := xs + [n, n + 1];
      ys := ys + [vel[n] * 3600.0, vel[n] * 3600.0];
      n := n + 1;
    }
  }
}

=== FILE: proximity.dfy ===
/**
 Proximity banding (main.py, `plot_data` lines 71-83): every recorded
 position is compared with the first one, the own ship's, and a pair closer
 than twice the safe radius is a collision, a pair strictly between two and
 three radii a caution.
 */
module Proximity {
  import opened Values

  /** The line `plot_data` draws between the own ship and another position:
      dark red, yellow, or none. */
  datatype Band = Collision | Caution | Clear

  /** The source's test on the Euclidean distance `d`, comparisons as
      written: the caution test comes first and is strict on both sides. */
  function BandOfDistance(radius: real, d: real): Band {
    if 2.0 * radius < d < 3.0 * radius then Caution
    else if d < 2.0 * radius then Collision
    else Clear
  }

  /** The same test on the squared distance `q`, so that no square root is
      needed. */
  function Classify(radius: real, q: real): Band {
    if radius <= 0.0 then Clear
    else if 4.0 * radius * radius < q < 9.0 * radius * radius then Caution
    else if q < 4.0 * radius * radius then Collision
    else Clear
  }

  /** Squaring is strictly increasing on the non-negative numbers. */
  lemma SquareLess(a: real, b: real)
    requires 0.0 <= a < b
    ensures a * a < b * b
  {
    ProductPositive(b - a, b + a);
    assert b * b - a * a == (b - a) * (b + a);
  }

  /** For non-negative numbers, comparing squares is comparing values. */
  lemma SquareOrder(a: real, b: real)
    requires 0.0 <= a && 0.0 <= b
    ensures a < b <==> a * a < b * b
  {
    if a < b {
      SquareLess(a, b);
    } else if b < a {
      SquareLess(b, a);
    }
  }

  /** The squared-distance classifier agrees with the source's comparisons
      on the distance itself, for every radius, including the exact
      boundaries `d == 2r` and `d == 3r`, which are left unflagged. */
  lemma ClassifyMatchesDistance(radius: real, d: real)
    requires 0.0 <= d
    ensures Classify(radius, d * d) == BandOfDistance(radius, d)
  {
    if radius > 0.0 {
      SquareOrder(2.0 * radius, d);
      SquareOrder(d, 2.0 * radius);
      SquareOrder(d, 3.0 * radius);
      assert (2.0 * radius) * (2.0 * radius) == 4.0 * radius * radius;
      assert (3.0 * radius) * (3.0 * radius) == 9.0 * radius * radius;
    }
  }

  /** A pair at exactly twice the safe radius draws no line at all. */
  lemma TwoRadiiUnflagged(radius: real)
    ensures BandOfDistance(radius, 2.0 * radius) == Clear
  {
  }

  /** A drawn line: the other position and its band. */
  datatype Link = Link(target: Pos, band: Band)

  /** The lines drawn from the own ship `our` over the recorded positions
      `cc`, in order.  Positions equal to `our` are skipped, and positions
      are never compared with one another. */
  function Links(our: Pos, cc: seq<Pos>, radius: real): (r: seq<Link>)
    ensures |r| <= |cc|
    ensures forall l :: l in r ==>
      && l.target in cc
      && l.target != our
      && l.band == Classify(radius, SqDist(our, l.target))
      && l.band != Clear
    ensures forall i :: 0 <= i < |cc| && cc[i] != our && Classify(radius, SqDist(our, cc[i])) != Clear ==>
      Link(cc[i], Classify(radius, SqDist(our, cc[i]))) in r
  {
    if |cc| == 0 then []
    else
      var b := Classify(radius, SqDist(our, cc[0]));
      var rest := Links(our, cc[1..], radius);
      assert forall i :: 1 <= i < |cc| ==> cc[i] == cc[1..][i - 1];
      if cc[0] != our && b != Clear then [Link(cc[0], b)] + rest else rest
  }
}

=== FILE: sampler.dfy ===
/**
 Time-indexed sampling of one vessel (main.py, `plot_data` lines 50-67 and
 the window test of `plot_position`): each leg starts when the earlier ones
 have run their durations, and a leg records the vessel's position exactly
 when the query time falls in its half-open window.
 */
module Sampler {
  import opened Values
  import opened Kinematics
  import Assembly

  /** The legs of a vessel, read item by item; `None` as soon as one item
      makes `plot_items` or `plot_position` raise. */
  function Legs(items: seq<map<string, Json>>): (r: Option<seq<Leg>>)
    ensures r.Some? <==> forall i :: 0 <= i < |items| ==> ToLeg(items[i]).Some?
    ensures r.Some? ==> |r.value| == |items| && forall i :: 0 <= i < |items| ==> ToLeg(items[i]) == Some(r.value[i])
  {
    if |items| == 0 then Some([])
    else match ToLeg(items[0])
      case None => None
      case Some(leg) =>
        assert forall i :: 0 <= i < |items| - 1 ==> items[1..][i] == items[i + 1];
        match Legs(items[1..])
        case None => None
        case Some(rest) => Some([leg] + rest)
  }

  /** The durations of the legs, in order. */
  function LegDurations(legs: seq<Leg>): (ds: seq<real>)
    ensures |ds| == |legs|
    ensures forall i :: 0 <= i < |legs| ==> ds[i] == legs[i].duration
  {
    seq(|legs|, i requires 0 <= i < |legs| => legs[i].duration)
  }

  /** `start_time` when leg `i` is reached: the running sum of the earlier
      durations. */
  function StartOf(legs: seq<Leg>, i: nat): real
    requires i <= |legs|
  {
    Sum(LegDurations(legs)[..i])
  }

  /** The vessel's total `time`. */
  function Total(legs: seq<Leg>): real {
    Sum(LegDurations(legs))
  }

  /** Every leg moves forward in time. */
  predicate Forward(legs: seq<Leg>) {
    forall i :: 0 <= i < |legs| ==> legs[i].duration > 0.0
  }

  /** `time - start_time`: the time spent on leg `i` at query time `t`. */
  function Elapsed(legs: seq<Leg>, i: nat, t: real): real
    requires i <= |legs|
  {
    t - StartOf(legs, i)
  }

  /** The window test of `plot_position`:
      `time - start_time < duration and time >= start_time`. */
  predicate Active(legs: seq<Leg>, i: nat, t: real)
    requires i < |legs|
  {
    Elapsed(legs, i, t) < legs[i].duration && t >= StartOf(legs, i)
  }

  /** The positions the loop over the first `n` legs appends to
      `current_coords` at query time `t`, in leg order. */
  function Recorded(env: Env, legs: seq<Leg>, t: real, n: nat): (r: seq<Pos>)
    requires n <= |legs|
    requires forall i :: 0 <= i < |legs| ==> legs[i].duration != 0.0
  {
    if n == 0 then []
    else
      Recorded(env, legs, t, n - 1) +
      (if Active(legs, n - 1, t) then [Sample(env, legs[n - 1], Elapsed(legs, n - 1, t))] else [])
  }

  /** The next start time is this start time plus this leg's duration. */
  lemma StartOfNext(legs: seq<Leg>, i: nat)
    requires i < |legs|
    ensures StartOf(legs, i + 1) == StartOf(legs, i) + legs[i].duration
  {
    var ds := LegDurations(legs);
    assert ds[..i + 1] == ds[..i] + [ds[i]];
    SumSnoc(ds[..i], ds[i]);
  }

  /** Leg `i`'s window is the half-open interval from its start to the
      next leg's start. */
  lemma ActiveWindow(legs: seq<Leg>, i: nat, t: real)
    requires i < |legs|
    ensures Active(legs, i, t) <==> StartOf(legs, i) <= t < StartOf(legs, i + 1)
  {
    StartOfNext(legs, i);
  }

  /** With positive durations the start times only grow. */
  lemma StartOfMonotone(legs: seq<Leg>, i: nat, j: nat)
    requires Forward(legs)
    requires i <= j <= |legs|
    ensures StartOf(legs, i) <= StartOf(legs, j)
  {
    SumPrefixMonotone(LegDurations(legs), i, j);
  }

  /** The last start time is the vessel's total time. */
  lemma StartOfEnd(legs: seq<Leg>)
    ensures StartOf(legs, |legs|) == Total(legs)
  {
    assert LegDurations(legs)[..|legs|] == LegDurations(legs);
  }

  /** With positive durations, no two legs of a vessel are active at the
      same query time. */
  lemma AtMostOneActive(legs: seq<Leg>, i: nat, j: nat, t: real)
    requires Forward(legs)
    requires i < |legs| && j < |legs|
    requires Active(legs, i, t) && Active(legs, j, t)
    ensures i == j
  {
    ActiveWindow(legs, i, t);
    ActiveWindow(legs, j, t);
    if i < j {
      StartOfMonotone(legs, i + 1, j);
    } else if j < i {
      StartOfMonotone(legs, j + 1, i);
    }
  }

  /** With positive durations some leg is active at every query time from
      0 up to, but not including, the total time. */
  lemma {:induction false} SomeActive(legs: seq<Leg>, t: real, n: nat)
    requires Forward(legs)
    requires n <= |legs|
    requires 0.0 <= t < StartOf(legs, n)
    ensures exists i :: 0 <= i < n && Active(legs, i, t)
  {
    if n > 0 {
      if t >= StartOf(legs, n - 1) {
        ActiveWindow(legs, n - 1, t);
      } else {
        SomeActive(legs, t, n - 1);
      }
    }
  }

  /** No leg is active before time 0 or from the total time on: the query
      time is not clamped into the route. */
  lemma NoneActiveOutside(legs: seq<Leg>, i: nat, t: real)
    requires Forward(legs)
    requires i < |legs|
    requires t < 0.0 || t >= Total(legs)
    ensures !Active(legs, i, t)
  {
    ActiveWindow(legs, i, t);
    StartOfMonotone(legs, 0, i);
    StartOfMonotone(legs, i + 1, |legs|);
    StartOfEnd(legs);
    assert StartOf(legs, 0) == 0.0;
  }

  /** With positive durations the first `n` legs record one position when
      `0 <= t` is before the `n`-th start time, and none otherwise. */
  lemma {:induction false} RecordedCount(env: Env, legs: seq<Leg>, t: real, n: nat)
    requires Forward(legs)
    requires n <= |legs|
    ensures |Recorded(env, legs, t, n)| == if 0.0 <= t < StartOf(legs, n) then 1 else 0
  {
    if n == 0 {
      assert StartOf(legs, 0) == 0.0;
    } else {
      RecordedCount(env, legs, t, n - 1);
      ActiveWindow(legs, n - 1, t);
      StartOfMonotone(legs, n - 1, n);
      StartOfMonotone(legs, 0, n - 1);
      assert StartOf(legs, 0) == 0.0;
    }
  }

  /** The one position recorded is the active leg's sample at the time
      spent on that leg. */
  lemma {:induction false} RecordedIsActiveLeg(env: Env, legs: seq<Leg>, t: real, i: nat, n: nat)
    requires Forward(legs)
    requires i < |legs| && n <= |legs|
    requires Active(legs, i, t)
    ensures Recorded(env, legs, t, n) ==
      if i < n then [Sample(env, legs[i], Elapsed(legs, i, t))] else []
  {
    if n > 0 {
      RecordedIsActiveLeg(env, legs, t, i, n - 1);
      if n - 1 != i && Active(legs, n - 1, t) {
        AtMostOneActive(legs, i, n - 1, t);
      }
    }
  }

  /** The vessel-level statement: with positive durations a vessel records
      exactly one position while `0 <= t < time`, the active leg's, and
      none at any other query time. */
  lemma VesselRecords(env: Env, legs: seq<Leg>, t: real)
    requires Forward(legs)
    ensures 0.0 <= t < Total(legs) ==>
      exists i :: 0 <= i < |legs| && Active(legs, i, t) &&
        Recorded(env, legs, t, |legs|) == [Sample(env, legs[i], Elapsed(legs, i, t))]
    ensures !(0.0 <= t < Total(legs)) ==> Recorded(env, legs, t, |legs|) == []
  {
    StartOfEnd(legs);
    RecordedCount(env, legs, t, |legs|);
    if 0.0 <= t < Total(legs) {
      SomeActive(legs, t, |legs|);
      var i :| 0 <= i < |legs| && Active(legs, i, t);
      RecordedIsActiveLeg(env, legs, t, i, |legs|);
    }
  }

  /** The legs' durations are the items' durations, so the vessel `time`
      stored by the preparation is the legs' total. */
  lemma TimeIsTotal(items: seq<map<string, Json>>, legs: seq<Leg>)
    requires Legs(items) == Some(legs)
    ensures Sum(Assembly.Durations(items)) == Total(legs)
  {
    assert Assembly.Durations(items) == LegDurations(legs);
  }

  /** The query time `p_time * data['time']`. */
  function QueryTime(p: real, total: real): real {
    p * total
  }

  /** The fraction `tper / 100` the application passes as `p_time`: the
      slider runs over the integers 0 to 99. */
  function SliderFraction(tper: int): real {
    tper as real / 100.0
  }

  /** A fraction below one of a positive total stays inside it. */
  lemma ScaledInside(p: real, total: real)
    requires 0.0 <= p < 1.0 && 0.0 < total
    ensures 0.0 <= QueryTime(p, total) < total
  {
    ProductPositive(1.0 - p, total);
    assert total - p * total == (1.0 - p) * total;
  }

  /** A factor of one or more of a positive total reaches past its end. */
  lemma ScaledAfter(p: real, total: real)
    requires 1.0 <= p && 0.0 < total
    ensures QueryTime(p, total) >= total
  {
    assert p * total - total == (p - 1.0) * total;
    if p > 1.0 {
      ProductPositive(p - 1.0, total);
    }
  }

  /** Every slider position lands inside a vessel's route, so a vessel with
      positive durations and at least one leg always records a position in
      the application. */
  lemma SliderAlwaysInside(legs: seq<Leg>, tper: int)
    requires Forward(legs) && |legs| > 0
    requires 0 <= tper <= 99
    ensures 0.0 <= SliderFraction(tper) < 1.0
    ensures 0.0 <= QueryTime(SliderFraction(tper), Total(legs)) < Total(legs)
  {
    StartOfEnd(legs);
    StartOfNext(legs, 0);
    StartOfMonotone(legs, 1, |legs|);
    assert StartOf(legs, 0) == 0.0;
    ScaledInside(SliderFraction(tper), Total(legs));
  }
}

=== FILE: values.dfy ===
/**
 Shared values of the KTViz model: an optional result, the JSON values a
 scenario file is made of, plot positions, and the numeric primitives the
 plotter borrows from `math` and from the `konverter` module.
 */
module Values {

  /** The outcome of a step that Python would abort with an exception; every
      such exception inside `prepare_file` ends as `None`. */
  datatype Option<+T> = None | Some(value: T)

  /** A parsed JSON value.  Booleans and `null` are not part of the model. */
  datatype Json =
    | Num(n: real)
    | Str(s: string)
    | Arr(elems: seq<Json>)
    | Obj(fields: map<string, Json>)

  /** A recorded position in plot order: `east` is the horizontal axis (the
      route's `Y`), `north` the vertical axis (the route's `X`). */
  datatype Pos = Pos(east: real, north: real)

  /** The squared planar distance between two positions. */
  function SqDist(p: Pos, q: Pos): real {
    (p.east - q.east) * (p.east - q.east) + (p.north - q.north) * (p.north - q.north)
  }

  /** The numeric primitives whose code is not part of this model.  They are
      total functions over `real` about which nothing else is known:
      - `positions(bearing, distance)` resolves a compass bearing and a
        distance into a (north, east) displacement;
      - `coordsRelative(lat0, lon0, lat, lon)` maps a geodetic point into
        the local frame anchored at (lat0, lon0);
      - `coordsGlobal(north, east, lat0, lon0)` is the way back;
      - `cos`, `sin` and `atan2` stand for the floating-point functions
        of Python's `math` module, and `sqrt` for the power `** 0.5` the
        code takes of a squared length. */
  datatype Env = Env(
    positions: (real, real) -> (real, real),
    coordsRelative: (real, real, real, real) -> (real, real),
    coordsGlobal: (real, real, real, real) -> (real, real),
    cos: real -> real,
    sin: real -> real,
    atan2: (real, real) -> real,
    sqrt: real -> real)

  /** `math.pi` as a decimal. */
  const Pi: real := 3.141592653589793

  /** `math.radians`: degrees to radians. */
  function Radians(deg: real): (rad: real)
    ensures deg == 0.0 <==> rad == 0.0
    ensures 0.0 < deg <==> 0.0 < rad
  {
    deg * Pi / 180.0
  }

  /** `math.degrees`: radians to degrees. */
  function Degrees(rad: real): (deg: real)
    ensures Radians(deg) == rad
  {
    rad * 180.0 / Pi
  }

  /** A product of two positive numbers is positive. */
  lemma ProductPositive(x: real, y: real)
    requires 0.0 < x && 0.0 < y
    ensures 0.0 < x * y
  {
  }

  /** Python's running total `acc += x` over a sequence, left to right. */
  function Sum(s: seq<real>): real {
    if |s| == 0 then 0.0 else Sum(s[..|s| - 1]) + s[|s| - 1]
  }

  /** Extending a sequence by one element adds that element to its total. */
  lemma SumSnoc(s: seq<real>, x: real)
    ensures Sum(s + [x]) == Sum(s) + x
  {
    assert (s + [x])[..|s|] == s;
  }

  /** A total of non-negative terms grows with the prefix it covers. */
  lemma {:induction false} SumPrefixMonotone(s: seq<real>, i: nat, j: nat)
    requires i <= j <= |s|
    requires forall k :: 0 <= k < |s| ==> s[k] >= 0.0
    ensures Sum(s[..i]) <= Sum(s[..j])
    decreases j - i
  {
    if i < j {
      SumPrefixMonotone(s, i, j - 1);
      assert s[..j] == s[..j - 1] + [s[j - 1]];
      SumSnoc(s[..j - 1], s[j - 1]);
    }
  }
}
